=== FILE: README.md ===
# TriadaCafetera authentication and directory core, in Dafny

This project models the back end of TriadaCafetera, a FastAPI service for a
coffee-farm tourism site. It covers the part of the code that decides who a
request is and what it may write:

- **Credential utilities** (`app/utils/auth.py`):
  - cutting a password's UTF-8 encoding to bcrypt's 72-byte limit without splitting a character;
  - hashing and verifying passwords;
  - issuing and checking the JWT access token.
- **Session resolver** (`app/utils/middleware.py`): turns a bearer token into the active user's profile. It has an optional mode and a required mode, plus the `require_roles` and `require_active_user` guards.
- **`AuthController`**: register, login, current user, refresh, change password, password-reset request and confirm, and profile update.
- **`UserController`**: create, get, list, update, soft delete, authenticate and login.
- **Client endpoints** (`app/routes/client.py`): a client is a user plus a `clients` row. Creation and update have uniqueness checks that exclude the client itself, and delete is a soft delete.
- **`ExperienceController`**: a unique title, an owner that must exist, partial update, delete, and the by-owner and price-range queries.
- **Estate endpoints**: a unique estate name, partial update, delete, and the estate's services.
- **`BookingController`**: create, get, the filtered and paged listing, partial update, delete, and the per-user and per-estate listings.

Modelling choices:

- **Tables:** each database table is a sequence of immutable rows in insertion order.
  - `Tables.Filter` stands for a `WHERE` clause, `Tables.Page` for `.offset(skip).limit(limit)`, and `Tables.FindFirst` for `scalar_one_or_none()`.
  - Routes that validate their bounds (`ge=0`) take `nat` and use `Tables.Page`. Routes that accept any integer (`get_all_users`, `get_clients`, `get_estates`) use `Tables.OffsetLimit`, which follows SQLite: a negative OFFSET counts as 0 and a negative LIMIT sets no bound.
  - A new row's key is one more than the largest key in use.
  - Unique columns are table invariants (`Users.WellFormed`, `Experiences.WellFormed`, `Estates.WellFormed`, `Bookings.WellFormed`). A commit that would break one is the `None` of `Users.Insert` and `Users.Update`.
- **Response conversion:** `UserProfile` and `UserResponse` require `full_name` and `phone` to be strings, while the `users` row allows null in both (clients may be created without them). `Users.ProfileOf` is the conversion: a row without them becomes a server error wherever the code converts it.
- **Client password hash:** the client endpoints take a `Clients.Hasher`. `Passlib` is the code as written and `Application` the corrected choice (see "## Findings").
- **Errors:** every `HTTPException` the code raises is a constructor of `Errors.Error`; the comment on each constructor gives its status code and detail message.
- **bcrypt** is an ideal hash. `Credentials.PasswordHash` records the salt and the key bytes bcrypt reads, at most 72 of them, and `bcrypt.checkpw` compares them.
  - The salt `bcrypt.gensalt()` draws is a parameter.
- **JWT signing** is an ideal MAC over the algorithm, the key and the claims. A token is either a signed payload or garbage.
- **Time** is an integer number of seconds passed in as `now`. A token is accepted while `now <= exp`, following python-jose's expiry check.
- **UTF-8** is modelled from RFC 3629: the encoder of section 3 and the `UTF8-char` grammar of section 4. `Utf8.Valid` is "`bytes.decode('utf-8')` succeeds".

## Model

| member | source | states |
|---|---|---|
| Utf8.EncodeValid | app/utils/auth.py:9 | Every password's UTF-8 encoding decodes. |
| Utf8.EncodeInjective | app/utils/auth.py:9 | Distinct passwords have distinct encodings, so hashing the encoding loses nothing before the 72-byte cut. |
| Utf8.EncodeCharRoundTrip | app/utils/auth.py:9 | Reading the payload bits of a character's encoding back gives the character's scalar value. |
| Utf8.ValidPrefixIsBoundary | app/utils/auth.py:14-19 | A byte prefix of an encoding that decodes ends exactly after some character. |
| Credentials.DropUntilValid | app/utils/auth.py:14-19 | The drop-last-byte loop ends with a prefix of its input that decodes. |
| Credentials.DropUntilValidLongest | app/utils/auth.py:14-19 | The loop stops at the longest prefix that decodes and never drops a byte it could keep. |
| Credentials.TruncatePassword | app/utils/auth.py:7-20 | The result is a prefix of the encoding, at most 72 bytes long, and decodes. An encoding of at most 72 bytes is returned unchanged. |
| Credentials.FitCount | app/utils/auth.py:7-20 | Character-level reference: how many leading characters fit in a byte budget, never more than there are. |
| Credentials.FitCountMaximal | app/utils/auth.py:7-20 | Those characters fit, and one more would not. |
| Credentials.FitCountAll | app/utils/auth.py:9-10 | When the whole encoding fits, every character is kept. |
| Credentials.TruncateKeepsFittingCharacters | app/utils/auth.py:7-20 | Truncation equals the encoding of exactly the leading characters that fit in 72 bytes, so no character is ever split. |
| Credentials.BoundaryWithinFit | app/utils/auth.py:12-19 | Any character boundary within the first 72 bytes lies at or before the end of the characters that fit, so the loop cannot stop later than the reference. |
| Credentials.TruncateIsLongestValidPrefix | app/utils/auth.py:10-19 | No longer prefix of at most 72 bytes decodes. |
| Credentials.TruncateDropsAtMostOneCharacter | app/utils/auth.py:12-19 | A password over the limit keeps more than 68 bytes: only the tail of one character is dropped. |
| Credentials.TruncateIdempotent | app/utils/auth.py:7-20 | Truncating the kept characters again gives the same bytes. |
| Credentials.HashPw | app/utils/auth.py:36-37 | The hash embeds the salt and at most the first 72 key bytes, which is what bcrypt reads. |
| Credentials.HashPassword | app/utils/auth.py:31-39 | A password verifies against its own hash, and the hashed key fits bcrypt's limit. |
| Credentials.VerifyIffSameKeptCharacters | app/utils/auth.py:22-39 | A password verifies against another's hash exactly when both keep the same characters within 72 bytes. |
| Tokens.Lifetime | app/utils/auth.py:44-47 | A missing or zero `expires_delta` gives 15 minutes; any other delta is used as given. |
| Tokens.CreateAccessToken | app/utils/auth.py:41-50 | The token is signed with the configured key and algorithm. It carries every input claim plus `exp = now + lifetime`. |
| Tokens.VerifyToken | app/utils/auth.py:52-58 | Claims are returned only for a token signed with the configured key whose claims pass `jwt.decode`'s default checks: not expired, an integer `iat`, an `nbf` not after now, a string `sub` and `jti`, and no `aud` or `at_hash`. Every such token is accepted. |
| Tokens.IssueThenVerify | app/utils/auth.py:41-58 | An issued token whose other claims pass the checks verifies exactly until its expiry second, and returns the claims it was issued with. One whose claims fail them never verifies. |
| Tokens.ForeignKeyRejected | app/utils/auth.py:52-58 | A token signed under another key is refused. |
| Tokens.TamperedPayloadRejected | app/utils/auth.py:52-58 | A payload changed after signing is refused. |
| Tokens.NonStringSubjectRejected | app/utils/auth.py:52-58 | A signed token whose `sub` is the integer 7 is refused. |
| Tokens.OtherClaimsIgnoreExp | app/utils/auth.py:41-58 | Adding `exp` at issue leaves the other claim checks as they were. |
| Session.LookupSubject | app/utils/middleware.py:41-42 | The user is found by the `sub` claim alone, and only by a string one. |
| Session.CurrentUserOptional | app/utils/middleware.py:15-47 | No credentials give `None`. A profile comes back only for an active user the token vouches for. A token vouching for nobody gives `None`. An active vouched-for user whose row the profile schema refuses gives a server error. |
| Session.CurrentUserRequired | app/utils/middleware.py:49-90 | Success only for an active vouched-for user, with that user's profile. "Usuario inactivo" needs an inactive vouched-for user. A server error needs an active vouched-for user without `full_name` or `phone`. Every other failure is the credentials error. |
| Session.OptionalResolvesVouchedUser | app/utils/middleware.py:41-47 | With unique usernames, optional mode gives `None` for an inactive vouched-for user. For an active one it gives the profile, or a server error when the row has no full profile. |
| Session.RequiredResolvesVouchedUser | app/utils/middleware.py:78-90 | Required mode gives the inactive-user error for an inactive user. For an active one it gives the outcome of the profile conversion. |
| Session.OptionalAgreesWithRequired | app/utils/middleware.py:15-90 | Optional mode returns a profile exactly when required mode succeeds, and it is the same profile. It fails with a server error exactly when required mode does, and every other failure becomes `None`. |
| Session.UserIdClaimNotMatched | app/utils/middleware.py:69-78 | A token whose `user_id` names any id at all still resolves to the user named by `sub`. |
| Session.RequireRoles | app/utils/middleware.py:92-105 | The guard passes every user the resolver passes: the role list is never consulted and "Acceso denegado" cannot occur. |
| Session.RequireActiveUser | app/utils/middleware.py:107-118 | The guard's own inactive check is dead: its 403 cannot occur, because the resolver already refused inactive users. |
| AuthService.IdentityClaims | app/controllers/authController.py:89-93 | Access tokens carry exactly `sub` = username and `user_id` = id. |
| AuthService.GrantFor | app/controllers/authController.py:89-101 | A grant carries a 30-minute token for those claims, with `expires_in` 1800. |
| AuthService.Register | app/controllers/authController.py:24-77 | Username before email, then a phone clash becomes the integrity error; nothing is written on failure. On success one active row with the hashed password is appended and the unique constraints still hold. |
| AuthService.RegisterThenLogin | app/controllers/authController.py:24-101 | A registered user can log in at once with the chosen password, and the issued token resolves to the new user. |
| AuthService.Login | app/controllers/authController.py:79-101 | One 401 covers an unknown user, a wrong password and an inactive account, exactly when authentication fails. An authenticated user whose row has no full profile is a server error. Success issues a token for exactly the authenticated user. |
| AuthService.GrantResolves | app/controllers/authController.py:58-70 | A session's access token resolves through the middleware to its user for 30 minutes. |
| AuthService.LoginThenResolve | app/controllers/authController.py:79-101 | A login's token resolves to the user who logged in. |
| AuthService.GetCurrentUser | app/controllers/authController.py:103-136 | The controller's own resolver decides exactly as the required middleware does, server error included. |
| AuthService.Refresh | app/controllers/authController.py:138-152 | A fresh 30-minute token for the current user's username and id. |
| AuthService.RefreshKeepsSession | app/controllers/authController.py:138-152 | The refreshed token resolves to the same profile as the session it refreshed. |
| AuthService.ChangePassword | app/controllers/authController.py:154-175 | Unknown user gives 404 and a wrong current password gives 400. On success only that user's hash changes, to one the new password verifies. |
| AuthService.ChangePasswordThenLogin | app/controllers/authController.py:154-175 | After the change, login accepts exactly the passwords that keep the new password's first 72 bytes of characters. |
| AuthService.RequestPasswordReset | app/controllers/authController.py:177-196 | The same message for known and unknown emails. Only a known email gets a one-hour token with `type = "password_reset"` for that user. |
| AuthService.ConfirmPasswordReset | app/controllers/authController.py:198-242 | An unverifiable token is refused as expired. A wrong type or a falsy `sub`/`user_id` is refused as invalid. The user-not-found error comes exactly when the token passes those checks and no user holds its `sub`. Otherwise only that user's hash changes, to one the new password verifies. |
| AuthService.ResetThenLogin | app/controllers/authController.py:177-242 | A known user's reset token, confirmed within the hour, sets the new password, and an active user then logs in with it. |
| AuthService.ResetTokenNamesUser | app/controllers/authController.py:177-222 | Within the hour, a known user's reset token verifies, has the reset type and truthy identity claims, and names that user. |
| AuthService.ResetRefusesUserIdZero | app/controllers/authController.py:215-222 | A reset token for user id 0 is refused as invalid. |
| AuthService.AccessTokenCannotReset | app/controllers/authController.py:208-213 | An ordinary access token cannot confirm a reset. |
| AuthService.ResetTokenOpensSession | app/utils/middleware.py:63-90 | The resolver ignores `type`, so a reset token also opens a session. |
| AuthService.Supplied | app/controllers/authController.py:264-267 | A patch supplies a field only when the key is present and its value is not null. |
| AuthService.ProfileRow | app/controllers/authController.py:264-270 | The row written takes the supplied full name and phone and keeps every other field. |
| AuthService.UpdateUserProfile | app/controllers/authController.py:254-272 | Only `full_name` and `phone` change, and only when supplied: the caller's stored row becomes the old row with those values. Unknown user gives 404. A server error comes only from a phone another user holds or a row the profile schema refuses. |
| AuthService.ProfileUpdateFailsOnTakenPhone | app/controllers/authController.py:254-272 | The update fails exactly when it supplies a phone that another user holds. |
| AuthService.ProfileUpdateIgnoresOtherKeys | app/controllers/authController.py:264-267 | Keys outside the allow-list make no difference. |
| Users.Find | app/controllers/authController.py:289-302 | A lookup by a unique column returns a row with that value, or `None` exactly when no row has it. |
| Users.FindIsUnique | app/controllers/authController.py:289-302 | With unique constraints, a lookup finds the one row holding the value. |
| Users.NewId | app/controllers/userController.py:45-47 | The key given to a new user is positive and unused. |
| Users.Insert | app/controllers/authController.py:53-77 | A commit succeeds exactly when the new row clashes with no stored row on a unique column. It appends the row and keeps the constraints. |
| Users.Update | app/controllers/userController.py:104-113 | Rewriting a row succeeds exactly when it clashes with no other row. It replaces only that row and keeps the constraints. |
| Users.UpdateKeepingKeys | app/controllers/userController.py:104-113 | Rewriting a row without touching its unique columns always commits. |
| Users.ReplaceKeepingKeys | app/controllers/authController.py:170-173 | Writing a row back under its own keys keeps the constraints and stores the row. |
| Users.ReplaceWithStoredRow | app/controllers/userController.py:104-113 | Writing a stored row back unchanged leaves the table as it was. |
| Users.DistinctRowsDoNotClash | app/controllers/authController.py:254-272 | Two different rows of a constrained table share no unique value. |
| Users.Authenticate | app/controllers/authController.py:275-287 | A user is returned only when the name matches, the password verifies and the account is active. |
| Users.AuthenticateExactly | app/controllers/userController.py:135-147 | With unique usernames, authentication accepts exactly the stored active user whose password verifies. |
| Users.AuthenticateAfterNewHash | app/controllers/authController.py:170-175 | After a user's hash is replaced, authentication checks the attempt against the new hash. |
| Users.ProfileOf | app/schemas/auth.py:40-50 | The conversion succeeds exactly when `full_name` and `phone` are set, and then shows the row's fields; otherwise it is a server error. |
| Users.ProfileOfInjective | app/schemas/auth.py:40-50 | Two rows with the same profile differ at most in the password hash. |
| UserService.CreateUser | app/controllers/userController.py:16-56 | Username, then email, then a phone clash at commit. On success an active row with the supplied fields and the hashed password is appended under an unused id, and its profile is returned. |
| UserService.CreateAgreesWithRegister | app/controllers/userController.py:16-56 | Creating a user and registering one write the same table and fail with the same error. |
| UserService.GetUserById | app/controllers/userController.py:58-66 | `None` exactly when no user has that id. A found row the response schema refuses is a server error. Otherwise the result is that user's profile. |
| UserService.GetAllUsers | app/controllers/userController.py:85-91 | The profiles of exactly the rows SQLite's offset and limit select, in order, negative bounds included. A server error comes exactly when a selected row has no full profile. |
| UserService.Patched | app/controllers/userController.py:104-110 | A supplied password is stored as a hash it verifies against; an omitted one leaves the hash; the id never changes. |
| UserService.UpdateUser | app/controllers/userController.py:93-117 | Unknown id gives 404. A server error comes exactly when the stored row has no full profile or the patched row clashes with another on a unique column. Otherwise the stored row becomes exactly the patched row and no other row changes. |
| UserService.UpdateNothingChangesNothing | app/controllers/userController.py:93-117 | An update that supplies nothing leaves the table and profile as they were; a row without a full profile is a server error. |
| UserService.UpdatePasswordThenLogin | app/controllers/userController.py:104-113 | The update succeeds exactly for a row with a full profile, and then login accepts exactly the passwords that keep the new one's characters. |
| UserService.DeleteUser | app/controllers/userController.py:119-133 | A soft delete: the row stays with `is_active` set to 0, and no other row changes. Unknown id gives 404. A row the response schema refuses is a server error and is not deleted. |
| UserService.DeletedUserLockedOut | app/controllers/userController.py:119-147 | The delete succeeds exactly for a row with a full profile. After it the user cannot log in, and an earlier token is refused as inactive. |
| UserService.LoginUser | app/controllers/userController.py:135-168 | Failed authentication gives 401, exactly. An authenticated user without a full profile is a server error. Otherwise a 30-minute token for the authenticated user's name and id. |
| Clients.ViewOf | app/routes/client.py:104-114 | A client view shows the joined user's fields under the client id. |
| Clients.PasslibHash | app/routes/client.py:14-20 | As written: the key is the raw encoding cut at 72 bytes, possibly mid-character. |
| Clients.PasslibHashRejectsSplitPassword | app/routes/client.py:19-20 | A password whose 72-byte cut splits a character never verifies against that hash. |
| Clients.AsciiEncodeLength | app/utils/auth.py:9 | ASCII text encodes one byte per character. |
| Clients.PasslibSplitExample | app/routes/client.py:19-20 | 71 `a`s followed by `é` is such a password. |
| Clients.PasslibVerifiesExactly | app/routes/client.py:14-20 | A passlib hash verifies on the login path exactly when the password fits in 72 bytes or its 72-byte cut ends on a character boundary. |
| Clients.ClientHash | app/routes/client.py:19-20 | As written (`Passlib`) the stored hash verifies exactly under that condition. The corrected hasher (`Application`) always verifies. |
| Clients.CreateClient | app/routes/client.py:23-88 | Username, then email, then a non-empty phone are checked, each error exactly when it is the first to fire. On success an active user with the chosen hasher's hash and a client row with the same id are added. A write failure needs a clash on an empty phone. |
| Clients.CreatedClientLogsInExactly | app/routes/client.py:23-88 | A created client authenticates exactly when its stored hash verifies the chosen password. |
| Clients.PasslibClientLockedOut | app/routes/client.py:53-63 | As written, a client whose password's 72-byte cut splits a character is created but can never log in. |
| Clients.CreatedClientCanLogIn | app/routes/client.py:23-88 | With the corrected hasher a created client always authenticates with the chosen password. |
| Clients.CreateKeepsConsistent | app/routes/client.py:56-69 | Every client id still names a user and the unique constraints hold. |
| Clients.ActiveClients | app/routes/client.py:95-98 | Exactly the client rows whose user is active. |
| Clients.GetClients | app/routes/client.py:90-114 | The views of exactly the active clients SQLite's offset and limit select, in order, negative bounds included. |
| Clients.GetClientsShowsEveryActiveClient | app/routes/client.py:95-101 | A large enough first page shows every active client. |
| Clients.ClientRow | app/routes/client.py:146-150 | The user row of a client is found whether active or not. |
| Clients.GetClient | app/routes/client.py:116-140 | A client is shown only when active, and 404 otherwise. |
| Clients.GetClientExactly | app/routes/client.py:116-140 | The result is the client's view exactly when it is active. |
| Clients.PatchedClient | app/routes/client.py:200-207 | Only the allow-listed supplied fields change, and a supplied password is stored as the chosen hasher's hash. |
| Clients.UpdateClient | app/routes/client.py:142-226 | 404 exactly for an unknown client. The username, email and phone errors each come exactly when that check is the first to find another user holding a new value. On success only that user's row changes and the unique constraints still hold. |
| Clients.UpdatePassingChecksCommits | app/routes/client.py:161-226 | With unique constraints, an update that passes the three checks never fails at commit. |
| Clients.ResubmitOwnValues | app/routes/client.py:163-198 | Resubmitting a client's own username, email and phone succeeds. |
| Clients.UpdateUsernameCheckExcludesSelf | app/routes/client.py:163-172 | A username update is refused exactly when another user holds the name. |
| Clients.DeleteClient | app/routes/client.py:228-261 | 404 for an unknown client and 400 for an inactive one. Otherwise only that user's `is_active` becomes 0. |
| Clients.DeleteThenGetAndDeleteAgain | app/routes/client.py:228-261 | After a delete, get gives 404 and a second delete gives "already deleted". |
| Experiences.FindById | app/controllers/experienceController.py:59-69 | The experience with that key, or `None` exactly when none has it. |
| Experiences.FindByTitle | app/controllers/experienceController.py:71-76 | The experience with that title, or `None` exactly when none has it. |
| Experiences.FindByTitleUnique | app/controllers/experienceController.py:71-76 | With unique titles, the title lookup finds the one holder. |
| Experiences.FindByIdUnique | app/controllers/experienceController.py:59-69 | With unique keys, the key lookup finds the one row. |
| Experiences.Create | app/controllers/experienceController.py:16-57 | A taken title, then an unknown owner, are refused. On success the supplied fields are appended under an unused key and titles stay unique. |
| Experiences.Patched | app/controllers/experienceController.py:150-152 | Supplied fields replace stored ones; the key stays. |
| Experiences.Update | app/controllers/experienceController.py:120-160 | 404, then a non-empty title held by another experience, then an unknown non-zero owner: each error comes exactly when it is the first check to fire. A success with a non-zero owner names an existing user. A remaining clash on an empty title is a server error. Otherwise the patched row replaces the stored one and titles stay unique. |
| Experiences.ReplaceKeepsWellFormed | app/controllers/experienceController.py:131-160 | Replacing a row whose new title no other experience holds keeps keys and titles unique. |
| Experiences.UpdateTitleCheckExcludesSelf | app/controllers/experienceController.py:131-137 | A title update is refused exactly when the title is non-empty and another experience holds it. |
| Experiences.UpdateThenFind | app/controllers/experienceController.py:120-160 | After an update, the experience found under the same key is the patched row. |
| Experiences.Delete | app/controllers/experienceController.py:162-176 | 404 for an unknown key. Otherwise the row is removed and every other row is kept. |
| Experiences.FilterDropsMatch | app/controllers/experienceController.py:162-176 | Removing a present row shortens the table. |
| Experiences.DeleteThenNotFound | app/controllers/experienceController.py:162-176 | A deleted experience is not found, and deleting it again is 404. |
| Experiences.Owned | app/controllers/experienceController.py:86-95 | Exactly the experiences the user owns. |
| Experiences.ByUser | app/controllers/experienceController.py:86-95 | Exactly the window `.offset(skip).limit(limit)` selects from the user's experiences. |
| Experiences.ByUserComplete | app/controllers/experienceController.py:86-95 | A large enough first page lists every experience of the user. |
| Experiences.InRange | app/controllers/experienceController.py:108-118 | Exactly the experiences priced inside the range, bounds included. |
| Experiences.ByPriceRange | app/controllers/experienceController.py:108-118 | Exactly the window `.offset(skip).limit(limit)` selects from the experiences in range. |
| Experiences.ByPriceRangeExactly | app/controllers/experienceController.py:108-118 | A large enough first page lists an experience exactly when its price is in range. |
| Experiences.GetAll | app/controllers/experienceController.py:78-84 | Exactly the window `.offset(skip).limit(limit)` selects from the table. |
| Estates.FindById | app/controllers/estateController.py:24-25 | The estate with that key, or `None` exactly when none has it. |
| Estates.FindByName | app/controllers/estateController.py:39-40 | The estate with that name, or `None` exactly when none has it. |
| Estates.FindByIdUnique | app/controllers/estateController.py:24-25 | With unique keys, the key lookup finds the one row. |
| Estates.GetEstate | app/controllers/estateController.py:22-33 | The estate with that key, or 404 exactly when there is none. |
| Estates.GetEstates | app/controllers/estateController.py:13-19 | Exactly the window SQLite's offset and limit select from the table: a negative offset counts as 0 and a negative limit sets no bound. |
| Estates.CreateEstate | app/controllers/estateController.py:36-59 | A taken name is refused. Otherwise the supplied fields are appended under an unused key and names stay unique. |
| Estates.CreateThenGet | app/controllers/estateController.py:22-59 | A created estate is the one fetched under its new key. |
| Estates.Patched | app/controllers/estateController.py:74-87 | Supplied fields replace stored ones; the key stays. |
| Estates.UpdateEstate | app/controllers/estateController.py:62-92 | 404 for an unknown key. A new name is refused exactly when it differs from the current one and is taken. No other error occurs, so every other update of a found estate writes the patched row, and names stay unique. |
| Estates.UpdateKeepingNameSucceeds | app/controllers/estateController.py:77-84 | Keeping the current name, or supplying none, always succeeds. |
| Estates.UpdateThenGet | app/controllers/estateController.py:62-92 | After an update, the estate fetched under the same key is the patched row. |
| Estates.DeleteEstate | app/controllers/estateController.py:95-107 | 404 for an unknown key. Otherwise the row is removed and every other row is kept. |
| Estates.DeleteThenNotFound | app/controllers/estateController.py:95-107 | A deleted estate cannot be fetched, and deleting it again is 404. |
| Estates.GetEstateServices | app/controllers/estateController.py:110-126 | 404 for an unknown estate. Otherwise exactly the services with that estate id. |
| Bookings.FindById | app/controllers/bookingController.py:42-44 | The booking with that key, or `None` exactly when none has it. |
| Bookings.FindByIdUnique | app/controllers/bookingController.py:42-44 | With unique keys, the key lookup finds the one row. |
| Bookings.CreateBooking | app/controllers/bookingController.py:13-36 | Exactly the supplied fields are appended under an unused key. Positive head counts are preserved. |
| Bookings.GetBooking | app/controllers/bookingController.py:38-60 | The booking with that key, or 404 exactly when there is none. |
| Bookings.CreateThenGet | app/controllers/bookingController.py:13-60 | A created booking is the one fetched under its new key. |
| Bookings.SelectedRows | app/controllers/bookingController.py:73-81 | Exactly the bookings passing every truthy filter. |
| Bookings.GetAllBookings | app/controllers/bookingController.py:62-92 | Exactly the window `.offset(skip).limit(limit)` selects from the bookings passing every truthy filter. |
| Bookings.FirstPageListsExactlySelected | app/controllers/bookingController.py:73-83 | A large enough first page lists a booking exactly when it passes every truthy filter. |
| Bookings.FalsyFiltersIgnored | app/controllers/bookingController.py:76-81 | `user_id=0`, `estate_id=0` and `status=""` filter nothing. Without filters the listing is a page of the table. |
| Bookings.NoFilterKeepsAll | app/controllers/bookingController.py:76-81 | With no truthy filter every row is selected, in order. |
| Bookings.Patched | app/controllers/bookingController.py:106-109 | Supplied dates, status and head count replace the stored ones. The key, user and estate never change. |
| Bookings.UpdateBooking | app/controllers/bookingController.py:94-122 | 404 for an unknown key. Otherwise only that row changes, to the patched row. Unique keys and positive head counts are preserved. |
| Bookings.UpdateNothingChangesNothing | app/controllers/bookingController.py:94-122 | An update supplying nothing leaves the table as it was. |
| Bookings.UpdateThenGet | app/controllers/bookingController.py:94-122 | After an update, the booking fetched under the same key is the patched row. |
| Bookings.DeleteBooking | app/controllers/bookingController.py:124-141 | 404 for an unknown key. Otherwise the row is removed and every other row is kept. |
| Bookings.DeleteThenNotFound | app/controllers/bookingController.py:124-141 | A deleted booking cannot be fetched, and deleting it again is 404. |
| Bookings.BookingsByUser | app/controllers/bookingController.py:143-155 | Exactly the bookings of that user. |
| Bookings.BookingsByEstate | app/controllers/bookingController.py:157-169 | Exactly the bookings of that estate. |
| Bookings.ByUserIsFilteredListing | app/controllers/bookingController.py:62-155 | For a non-zero user id, the per-user listing equals the general listing filtered by that user. |
| Bookings.SameFilter | app/controllers/bookingController.py:76-77 | The user filter of the listing selects the same rows as the per-user query. |
| Bookings.ByEstateIsFilteredListing | app/controllers/bookingController.py:62-169 | For a non-zero estate id, the per-estate listing equals the general listing filtered by that estate. |
| Bookings.SameEstateFilter | app/controllers/bookingController.py:78-79 | The estate filter of the listing selects the same rows as the per-estate query. |
| Bookings.ZeroUserIdDiffers | app/controllers/bookingController.py:76-77 | User id 0 is no filter in the listing but selects only user 0's rows in the per-user query. |
| Tables.Filter | app/controllers/bookingController.py:73-81 | A `WHERE` clause keeps exactly the matching rows. |
| Tables.Page | app/controllers/bookingController.py:83 | `.offset(skip).limit(limit)` returns exactly the rows from `skip` on, in order, as many as `limit` allows. |
| Tables.PagesTile | app/controllers/bookingController.py:83 | A page of `a` rows followed by the page of `b` rows after it is the page of `a + b` rows. |
| Tables.OffsetLimit | app/routes/client.py:92-100 | Unvalidated bounds as SQLite reads them: a negative offset counts as 0 and a negative limit sets no bound; otherwise exactly the page. |
| Tables.ReplaceByKey | app/controllers/userController.py:111-113 | An `UPDATE ... WHERE id` rewrites exactly the row holding that key; every other row stays. |
| Tables.FindFirst | app/controllers/bookingController.py:42-44 | A row satisfying the condition, or `None` exactly when none does. |
| Tables.NextId | app/controllers/bookingController.py:26-28 | A new key is positive and above every key in use. |
| Wrappers.Or | app/controllers/bookingController.py:108-109 | A partial update writes the supplied value, or keeps the current one. |

## Left out

- bcrypt and HMAC-SHA256 internals, and the JWT base64url/JSON wire format: hashing and signing are ideal, collision-free terms.
- Salt generation and `datetime.utcnow()`: the salt and the current time are parameters.
- SQLAlchemy sessions, commit/rollback/refresh and async execution: every operation is one pure step from table to table. Concurrent requests and the check-then-insert race are not modelled; only the integrity-error outcome of a commit is.
- Row order: rows are listed in insertion order, standing in for the database's unspecified order of a query without `ORDER BY`.
- `HTTPBearer()` with its default `auto_error` answers a missing or non-Bearer header with 403 before the resolver runs. `Session.CurrentUserOptional` models the `None` credentials branch as written, and `Session.CurrentUserRequired` takes a token.
- The `except jwt.PyJWTError` handlers in the middleware and in `confirm_password_reset`: `verify_token` never raises, so they are dead code and are not modelled.
- Session.LookupSubject: a non-string `sub` is refused by `Tokens.VerifyToken` first, so the branch that matches no user for it is never reached from a verified token.
- Tokens.VerifyToken: a numeric claim (`exp`, `iat`, `nbf`) that is a string of digits, which Python's `int()` accepts, is treated as invalid. A null numeric claim, on which `int()` raises a `TypeError` that `verify_token` does not catch (a 500), is also treated as invalid. Floating-point claims are not modelled.
- `logout_user` returns a fixed message and changes no state (no token is revoked), and `get_user_profile` returns its argument; neither has a model.
- UserService.UpdateUser: an update that supplies no field issues an `UPDATE` with no values, whose outcome depends on SQLAlchemy; the model treats it as writing nothing.
- Experiences.Update: an update that supplies no field makes `update_experience` issue an `UPDATE` with no values (app/controllers/experienceController.py:152-156), whose outcome depends on SQLAlchemy; the model treats it as writing nothing.
- AuthService.UpdateUserProfile: the commit happens before the response is built, so a row the profile schema refuses is written and then answered with a 500; the model returns the server error without the written table. Through the route this cannot happen, because the current user was already converted to a profile.
- Explicit JSON `null` in update bodies is treated like an omitted field, except for the profile patch, where a null value is skipped as the source does.
- AuthService.UpdateUserProfile: values in the profile patch are strings; other JSON types are not modelled.
- Pydantic validation of request bodies (`EmailStr`, `Field(gt=0)`) happens before the controllers run. Bookings carries it only as the `PositiveHeadCounts` invariant that create and update preserve. The response conversion to `UserProfile` / `UserResponse` is modelled, as `Users.ProfileOf`.
- The unique phone: `Users.Clash` treats a non-null phone as a unique column; this is an assumption about the deployed schema. app/models/user.py declares only `username` and `email` unique (and is a stale model without a phone column), so the integrity errors that rest on the phone (`UserService.CreateUser`, `AuthService.Register`, `AuthService.UpdateUserProfile`, `AuthService.ProfileUpdateFailsOnTakenPhone`, `Clients.CreateClient`'s write failure) assume that constraint exists in the deployed schema.
- Strings are sequences of Unicode scalar values: `char` excludes lone surrogates, which Python strings can hold and `str.encode('utf-8')` refuses.
- Estates.DeleteEstate: the source deletes through the ORM (`db.delete(estate)`, app/controllers/estateController.py:106-107), and `Estate.bookings` and `Estate.reviews` are relationships without a delete cascade (app/models/estate.py:14-15). SQLAlchemy therefore sets the `estate_id` of the estate's bookings and reviews to NULL at flush. The model removes only the estate row: it does not rewrite the bookings table, so `Bookings.BookingsByEstate` after the delete is not modelled. It also does not model the 500 that follows when a review names the estate, since `reviews.estate_id` is NOT NULL (app/models/review.py:13) and reviews are not part of this model.
- Foreign keys are not enforced. A booking, estate or experience may name a missing user or estate, apart from the explicit owner check in `Experiences.Create`. A commit failure in `create_booking`, `update_booking`, `delete_booking` or `delete_client` is not modelled.
- Bookings.CreateBooking: the 400 raised when the database rejects the insert is not modelled, because the model enforces no foreign key that could reject it.
- `created_at` and other server-side defaults of the `users` row are not modelled.
- `get_experiences_by_location`, `search_experiences` (`ilike` matching), `get_experience_with_user` and `get_user_by_username_response` are outside the modelled core.
- The route-level `min_price > max_price` guard of `app/routes/experience.py` is not modelled. `Experiences.ByPriceRange` returns nothing for an inverted range, which `Experiences.ByPriceRangeExactly` shows.
- `GetEstateServices` returns `Service` rows. The mismatch between `ServiceResponse.id_service` and the model's `id`, and the `ForeignKey('estate.id')` naming the wrong table, are serialization and schema concerns and are not modelled.
- Session.RequireRoles: the role list is a parameter the body never reads, which is the source's behaviour (no role check exists).
- `app/controllers/clientController.py`, `profileController.py` and `reviewController.py` duplicate or do not import cleanly; they are not part of this model.

## Findings

| source | as written | input that shows it | evidently intended | confidence | as-written member | corrected member |
|---|---|---|---|---|---|---|
| app/routes/client.py:14-20 | Client passwords are hashed by passlib's bcrypt, which cuts the raw UTF-8 encoding at 72 bytes. Login goes through `verify_password` of app/utils/auth.py, which cuts at a character boundary first. | The password of 71 `a`s followed by `é` (73 bytes). Its 72-byte cut ends in half of `é`, so login never accepts the stored hash. | Client creation and update use the application's own `get_password_hash`, so a created client can always log in. | medium, not executed; with a bcrypt release that rejects keys over 72 bytes, creation fails instead | Clients.CreateClient with `Passlib`, Clients.PasslibClientLockedOut, Clients.PasslibSplitExample | Clients.ClientHash with `Application`, Clients.CreatedClientCanLogIn |

=== FILE: authservice.dfy ===
/** `AuthController` of `app/controllers/authController.py`: registration,
    login, token refresh, password change and reset, and profile update over
    the `users` table. A state-changing operation returns the table after
    its commit; an `HTTPException` becomes an `Err`. The salt a new hash
    draws and the current time are parameters. */
module AuthService {
  import opened Wrappers
  import opened Credentials
  import opened Tokens
  import opened Users
  import opened Errors
  import Session

  /** Access tokens live 30 minutes (`expires_in` 1800). */
  const AccessLifetime: int := 30 * 60

  /** Password-reset tokens live one hour. */
  const ResetLifetime: int := 60 * 60

  /** The body of a successful register, login or refresh: the access
      token, its lifetime in seconds and the user's profile. */
  datatype Grant = Grant(accessToken: Token, expiresIn: int, user: Profile)

  /** `{"sub": username, "user_id": id}`, the claims every access token carries. */
  function IdentityClaims(username: string, id: int): (claims: Claims)
    ensures Get(claims, "sub") == JStr(username) && Get(claims, "user_id") == JInt(id)
    ensures claims.Keys == {"sub", "user_id"}
  {
    map["sub" := JStr(username), "user_id" := JInt(id)]
  }

  /** An access token for a user, issued at `now` with the 30-minute lifetime. */
  function GrantFor(settings: Settings, now: int, username: string, id: int, profile: Profile): (g: Grant)
    ensures g.expiresIn == AccessLifetime && g.user == profile
    ensures g.accessToken == CreateAccessToken(settings, IdentityClaims(username, id), Some(AccessLifetime), now)
  {
    Grant(CreateAccessToken(settings, IdentityClaims(username, id), Some(AccessLifetime), now), AccessLifetime, profile)
  }

  /** The fields of `RegisterRequest`. */
  datatype RegisterRequest = RegisterRequest(username: string, email: string, fullName: string, phone: string, password: string)

  /** `register_user`: the username is checked first, then the email; the
      insert can still fail on the phone's unique constraint, which is
      reported as the generic integrity error. Nothing is written on any
      failure. */
  function Register(settings: Settings, now: int, salt: Salt, users: Table, request: RegisterRequest): (r: Result<(Table, Grant), Error>)
    ensures r == Err(UsernameTaken) <==> exists u | u in users :: u.username == request.username
    ensures r == Err(EmailTaken) <==>
      (forall u | u in users :: u.username != request.username) && exists u | u in users :: u.email == request.email
    ensures r == Err(IntegrityFailure) <==>
      (forall u | u in users :: u.username != request.username && u.email != request.email)
      && exists u | u in users :: u.phone == Some(request.phone)
    ensures r.Err? ==> r.error in {UsernameTaken, EmailTaken, IntegrityFailure}
    ensures r.Ok? ==> |r.value.0| == |users| + 1 && r.value.0[..|users|] == users
    ensures r.Ok? ==>
      var (stored, grant) := r.value;
      var u := stored[|users|];
      && u.username == request.username && u.email == request.email
      && u.fullName == Some(request.fullName) && u.phone == Some(request.phone)
      && u.isActive == 1 && VerifyPassword(request.password, u.hashedPassword)
      && (forall v | v in users :: v.id != u.id)
      && ProfileOf(u).Ok? && grant == GrantFor(settings, now, u.username, u.id, ProfileOf(u).value)
    ensures r.Ok? && WellFormed(users) ==> WellFormed(r.value.0)
  {
    if Find(users, ByUsername(request.username)).Some? then Err(UsernameTaken)
    else if Find(users, ByEmail(request.email)).Some? then Err(EmailTaken)
    else
      var row := User(NewId(users), request.username, request.email, Some(request.fullName), Some(request.phone),
                      HashPassword(request.password, salt), 1);
      match Insert(users, row)
      case None => Err(IntegrityFailure)
      case Some(stored) =>
        assert stored[|users|] == row && stored[..|users|] == users;
        Ok((stored, GrantFor(settings, now, row.username, row.id, ProfileOf(row).value)))
  }

  /** `login_user`: an unknown user, a wrong password and an inactive account
      all get the same 401; an authenticated user whose row the profile
      schema refuses gets a 500. */
  function Login(settings: Settings, now: int, users: Table, username: string, password: string): (r: Result<Grant, Error>)
    ensures r.Err? ==> r.error in {BadCredentials, ServerError}
    ensures r == Err(BadCredentials) <==> Authenticate(users, username, password).None?
    ensures r == Err(ServerError) <==>
      Authenticate(users, username, password).Some? && !HasProfile(Authenticate(users, username, password).value)
    ensures r.Ok? ==>
      var u := Authenticate(users, username, password).value;
      ProfileOf(u).Ok? && r.value == GrantFor(settings, now, u.username, u.id, ProfileOf(u).value)
  {
    match Authenticate(users, username, password)
    case None => Err(BadCredentials)
    case Some(u) =>
      match ProfileOf(u)
      case Err(e) => Err(e)
      case Ok(profile) => Ok(GrantFor(settings, now, u.username, u.id, profile))
  }

  /** A registered user can log in at once with the password they chose,
      and gets their own profile back. */
  lemma RegisterThenLogin(settings: Settings, now: int, later: int, salt: Salt, users: Table, request: RegisterRequest)
    requires WellFormed(users)
    requires Register(settings, now, salt, users, request).Ok?
    ensures var (stored, grant) := Register(settings, now, salt, users, request).value;
            var login := Login(settings, later, stored, request.username, request.password);
            login.Ok? && login.value.user == grant.user
  {
    var (stored, grant) := Register(settings, now, salt, users, request).value;
    var u := stored[|users|];
    AuthenticateExactly(stored, request.username, request.password, u);
  }

  /** The access token of a session resolves, through the middleware, to
      the profile it was issued for until its 30 minutes are up. */
  lemma GrantResolves(settings: Settings, issuedAt: int, now: int, users: Table, u: User, profile: Profile)
    requires WellFormed(users)
    requires u in users && u.isActive == 1
    requires now <= issuedAt + AccessLifetime
    ensures Session.CurrentUserRequired(settings, now, GrantFor(settings, issuedAt, u.username, u.id, profile).accessToken, users)
         == ProfileOf(u)
  {
    var token := GrantFor(settings, issuedAt, u.username, u.id, profile).accessToken;
    assert VerifyToken(settings, now, token) == Some(token.payload);
    assert Session.Vouches(settings, now, token, u);
    Session.RequiredResolvesVouchedUser(settings, now, token, users, u);
  }

  /** A successful login's token opens a session for the user who logged in. */
  lemma LoginThenResolve(settings: Settings, now: int, later: int, users: Table, username: string, password: string)
    requires WellFormed(users)
    requires Login(settings, now, users, username, password).Ok?
    requires later <= now + AccessLifetime
    ensures var grant := Login(settings, now, users, username, password).value;
            Session.CurrentUserRequired(settings, later, grant.accessToken, users) == Ok(grant.user)
  {
    var u := Authenticate(users, username, password).value;
    GrantResolves(settings, now, later, users, u, ProfileOf(u).value);
  }

  /** `get_current_user`: a second copy of the required resolver, looking
      the user up through `_get_user_by_username`. */
  function GetCurrentUser(settings: Settings, now: int, token: Token, users: Table): (r: Result<Profile, Error>)
    ensures r == Session.CurrentUserRequired(settings, now, token, users)
  {
    match VerifyToken(settings, now, token)
    case None => Err(CouldNotValidate)
    case Some(payload) =>
      var username := Get(payload, "sub");
      if username == JNull || Get(payload, "user_id") == JNull then Err(CouldNotValidate)
      else
        var user := if username.JStr? then Find(users, ByUsername(username.s)) else None;
        if user.None? then Err(CouldNotValidate)
        else if user.value.isActive != 1 then Err(InactiveUser)
        else ProfileOf(user.value)
  }

  /** `refresh_token`: a fresh 30-minute token for the current user. */
  function Refresh(settings: Settings, now: int, current: Profile): (g: Grant)
    ensures g.user == current && g.expiresIn == AccessLifetime
    ensures g.accessToken.Jws? && g.accessToken.payload.Keys == {"sub", "user_id", "exp"}
    ensures Get(g.accessToken.payload, "sub") == JStr(current.username)
    ensures Get(g.accessToken.payload, "user_id") == JInt(current.id)
    ensures Get(g.accessToken.payload, "exp") == JInt(now + AccessLifetime)
  {
    GrantFor(settings, now, current.username, current.id, current)
  }

  /** A refreshed token resolves to the same profile as the session it
      refreshed, for another 30 minutes from the refresh. */
  lemma RefreshKeepsSession(settings: Settings, issuedAt: int, refreshedAt: int, now: int, token: Token, users: Table)
    requires WellFormed(users)
    requires Session.CurrentUserRequired(settings, issuedAt, token, users).Ok?
    requires now <= refreshedAt + AccessLifetime
    ensures var current := Session.CurrentUserRequired(settings, issuedAt, token, users).value;
            Session.CurrentUserRequired(settings, now, Refresh(settings, refreshedAt, current).accessToken, users) == Ok(current)
  {
    var current := Session.CurrentUserRequired(settings, issuedAt, token, users).value;
    var u :| u in users && Session.Vouches(settings, issuedAt, token, u) && u.isActive == 1 && ProfileOf(u) == Ok(current);
    GrantResolves(settings, refreshedAt, now, users, u, current);
  }

  /** `change_password`: the current password must verify against the stored
      hash; then only that user's hash is replaced. Writing the hash cannot
      break a unique constraint. */
  function ChangePassword(salt: Salt, users: Table, current: Profile, currentPassword: string, newPassword: string): (r: Result<Table, Error>)
    ensures r == Err(UserNotFound) <==> forall u | u in users :: u.username != current.username
    ensures r == Err(WrongCurrentPassword) <==>
      var found := Find(users, ByUsername(current.username));
      found.Some? && !VerifyPassword(currentPassword, found.value.hashedPassword)
    ensures r.Err? ==> r.error in {UserNotFound, WrongCurrentPassword}
    ensures r.Ok? ==> |r.value| == |users|
    ensures r.Ok? ==>
      var u := Find(users, ByUsername(current.username)).value;
      && (forall i | 0 <= i < |users| && users[i].id != u.id :: r.value[i] == users[i])
      && (forall i | 0 <= i < |users| && users[i].id == u.id ::
            r.value[i] == u.(hashedPassword := r.value[i].hashedPassword)
            && VerifyPassword(newPassword, r.value[i].hashedPassword))
  {
    match Find(users, ByUsername(current.username))
    case None => Err(UserNotFound)
    case Some(u) =>
      if !VerifyPassword(currentPassword, u.hashedPassword) then Err(WrongCurrentPassword)
      else Ok(Replace(users, u.(hashedPassword := HashPassword(newPassword, salt))))
  }

  /** After a password change, logging in takes the new password, and the
      old one works only if it keeps the same characters within bcrypt's
      72-byte limit as the new one. */
  lemma ChangePasswordThenLogin(salt: Salt, users: Table, current: Profile, currentPassword: string, newPassword: string, attempt: string)
    requires WellFormed(users)
    requires ChangePassword(salt, users, current, currentPassword, newPassword).Ok?
    ensures var changed := ChangePassword(salt, users, current, currentPassword, newPassword).value;
            var u := Find(users, ByUsername(current.username)).value;
            var kept := attempt[..FitCount(attempt, MaxKeyBytes)] == newPassword[..FitCount(newPassword, MaxKeyBytes)];
            Authenticate(changed, current.username, attempt).Some? <==> u.isActive == 1 && kept
  {
    var u := Find(users, ByUsername(current.username)).value;
    AuthenticateAfterNewHash(users, u, HashPassword(newPassword, salt), attempt);
    VerifyIffSameKeptCharacters(attempt, newPassword, salt);
  }

  /** The reply to a reset request: the message is the same whether or not
      the email is known; only a known email gets a reset token. */
  datatype ResetReply = ResetReply(message: string, resetToken: Option<Token>)

  const ResetMessage := "Si el email existe, se enviará un enlace de restablecimiento"

  /** `request_password_reset`. */
  function RequestPasswordReset(settings: Settings, now: int, users: Table, email: string): (r: ResetReply)
    ensures r.message == ResetMessage
    ensures r.resetToken.None? <==> forall u | u in users :: u.email != email
    ensures r.resetToken.Some? ==> r.resetToken.value.Jws?
    ensures r.resetToken.Some? ==>
      var u := Find(users, ByEmail(email)).value;
      var payload := r.resetToken.value.payload;
      && payload.Keys == {"sub", "user_id", "type", "exp"}
      && Get(payload, "type") == JStr("password_reset")
      && Get(payload, "sub") == JStr(u.username) && Get(payload, "user_id") == JInt(u.id)
      && Get(payload, "exp") == JInt(now + ResetLifetime)
  {
    match Find(users, ByEmail(email))
    case None => ResetReply(ResetMessage, None)
    case Some(u) =>
      var claims := map["sub" := JStr(u.username), "user_id" := JInt(u.id), "type" := JStr("password_reset")];
      ResetReply(ResetMessage, Some(CreateAccessToken(settings, claims, Some(ResetLifetime), now)))
  }

  /** `confirm_password_reset`: the token must verify, be of type
      `password_reset`, and carry a truthy `sub` and `user_id` (so a
      `user_id` of 0 is refused, which the session resolver accepts); the
      user named by `sub` then gets the new hash, whether active or not. */
  function ConfirmPasswordReset(settings: Settings, now: int, salt: Salt, users: Table, token: Token, newPassword: string): (r: Result<Table, Error>)
    ensures VerifyToken(settings, now, token).None? <==> r == Err(ExpiredToken)
    ensures r == Err(InvalidToken) <==>
      var payload := VerifyToken(settings, now, token);
      payload.Some? && (Get(payload.value, "type") != JStr("password_reset")
                        || !Truthy(Get(payload.value, "sub")) || !Truthy(Get(payload.value, "user_id")))
    ensures r == Err(UserNotFound) <==>
      var payload := VerifyToken(settings, now, token);
      && payload.Some? && Get(payload.value, "type") == JStr("password_reset")
      && Truthy(Get(payload.value, "sub")) && Truthy(Get(payload.value, "user_id"))
      && Session.LookupSubject(users, payload.value).None?
    ensures r.Err? ==> r.error in {ExpiredToken, InvalidToken, UserNotFound}
    ensures r.Ok? ==> VerifyToken(settings, now, token).Some?
    ensures r.Ok? ==> Session.LookupSubject(users, VerifyToken(settings, now, token).value).Some?
    ensures r.Ok? ==> |r.value| == |users|
    ensures r.Ok? ==>
      var u := Session.LookupSubject(users, VerifyToken(settings, now, token).value).value;
      && (forall i | 0 <= i < |users| && users[i].id != u.id :: r.value[i] == users[i])
      && (forall i | 0 <= i < |users| && users[i].id == u.id ::
            r.value[i] == u.(hashedPassword := r.value[i].hashedPassword)
            && VerifyPassword(newPassword, r.value[i].hashedPassword))
  {
    match VerifyToken(settings, now, token)
    case None => Err(ExpiredToken)
    case Some(payload) =>
      if Get(payload, "type") != JStr("password_reset") then Err(InvalidToken)
      else if !Truthy(Get(payload, "sub")) || !Truthy(Get(payload, "user_id")) then Err(InvalidToken)
      else
        match Session.LookupSubject(users, payload)
        case None => Err(UserNotFound)
        case Some(u) => Ok(Replace(users, u.(hashedPassword := HashPassword(newPassword, salt))))
  }

  /** Reset round trip: the token a known email receives, confirmed within
      the hour, sets that user's password, and an active user can then log
      in with it. The user's id must be non-zero, as every id the database
      assigns is. */
  lemma ResetThenLogin(settings: Settings, requestedAt: int, now: int, salt: Salt, users: Table, u: User, newPassword: string)
    requires WellFormed(users)
    requires u in users && u.id != 0 && u.username != ""
    requires now <= requestedAt + ResetLifetime
    ensures var token := RequestPasswordReset(settings, requestedAt, users, u.email).resetToken;
            token.Some? &&
            var confirmed := ConfirmPasswordReset(settings, now, salt, users, token.value, newPassword);
            confirmed.Ok? && (Authenticate(confirmed.value, u.username, newPassword).Some? <==> u.isActive == 1)
  {
    var token := RequestPasswordReset(settings, requestedAt, users, u.email).resetToken.value;
    ResetTokenNamesUser(settings, requestedAt, now, users, u);
    assert ConfirmPasswordReset(settings, now, salt, users, token, newPassword)
        == Ok(Replace(users, u.(hashedPassword := HashPassword(newPassword, salt))));
    AuthenticateAfterNewHash(users, u, HashPassword(newPassword, salt), newPassword);
  }

  /** Within the hour, the reset token a known email receives verifies,
      passes the type and truthiness checks, and names that user. */
  lemma ResetTokenNamesUser(settings: Settings, requestedAt: int, now: int, users: Table, u: User)
    requires WellFormed(users)
    requires u in users && u.id != 0 && u.username != ""
    requires now <= requestedAt + ResetLifetime
    ensures var token := RequestPasswordReset(settings, requestedAt, users, u.email).resetToken;
            && token.Some?
            && VerifyToken(settings, now, token.value) == Some(token.value.payload)
            && Get(token.value.payload, "type") == JStr("password_reset")
            && Truthy(Get(token.value.payload, "sub")) && Truthy(Get(token.value.payload, "user_id"))
            && Session.LookupSubject(users, token.value.payload) == Some(u)
  {
    FindIsUnique(users, u, ByEmail(u.email));
    FindIsUnique(users, u, ByUsername(u.username));
    var token := RequestPasswordReset(settings, requestedAt, users, u.email).resetToken.value;
    assert VerifyToken(settings, now, token) == Some(token.payload);
  }

  /** A reset token for a user whose id is 0 is refused as invalid, though
      the session resolver would accept the same claims. */
  lemma ResetRefusesUserIdZero(settings: Settings, requestedAt: int, now: int, salt: Salt, users: Table, u: User, newPassword: string)
    requires WellFormed(users)
    requires u in users && u.id == 0
    requires now <= requestedAt + ResetLifetime
    ensures var token := RequestPasswordReset(settings, requestedAt, users, u.email).resetToken;
            token.Some? && ConfirmPasswordReset(settings, now, salt, users, token.value, newPassword) == Err(InvalidToken)
  {
    FindIsUnique(users, u, ByEmail(u.email));
    var token := RequestPasswordReset(settings, requestedAt, users, u.email).resetToken.value;
    assert VerifyToken(settings, now, token) == Some(token.payload);
  }

  /** An ordinary access token cannot confirm a reset: it has no `type`. */
  lemma AccessTokenCannotReset(settings: Settings, issuedAt: int, now: int, salt: Salt, users: Table, username: string, id: int, newPassword: string)
    requires now <= issuedAt + AccessLifetime
    ensures var token := CreateAccessToken(settings, IdentityClaims(username, id), Some(AccessLifetime), issuedAt);
            ConfirmPasswordReset(settings, now, salt, users, token, newPassword) == Err(InvalidToken)
  {
    var token := CreateAccessToken(settings, IdentityClaims(username, id), Some(AccessLifetime), issuedAt);
    assert VerifyToken(settings, now, token) == Some(token.payload);
  }

  /** The resolver does not look at `type`, so a reset token also opens a
      session as its user for the hour it lives. */
  lemma ResetTokenOpensSession(settings: Settings, requestedAt: int, now: int, users: Table, u: User)
    requires WellFormed(users)
    requires u in users && u.isActive == 1
    requires now <= requestedAt + ResetLifetime
    ensures var token := RequestPasswordReset(settings, requestedAt, users, u.email).resetToken;
            token.Some? && Session.CurrentUserRequired(settings, now, token.value, users) == ProfileOf(u)
  {
    FindIsUnique(users, u, ByEmail(u.email));
    var token := RequestPasswordReset(settings, requestedAt, users, u.email).resetToken.value;
    assert VerifyToken(settings, now, token) == Some(token.payload);
    assert Session.Vouches(settings, now, token, u);
    Session.RequiredResolvesVouchedUser(settings, now, token, users, u);
  }

  /** The request body of `update_user_profile`: a JSON object whose values
      are strings or `null` (`None`). */
  type ProfilePatch = map<string, Option<string>>

  /** The value a patch supplies for `field`, if it supplies a non-null one. */
  function Supplied(patch: ProfilePatch, field: string): (v: Option<string>)
    ensures v.Some? <==> field in patch && patch[field].Some?
    ensures v.Some? ==> patch[field] == v
  {
    if field in patch then patch[field] else None
  }

  /** The row `update_user_profile` writes: the allow-listed fields the
      patch supplies with a non-null value, and nothing else. */
  function ProfileRow(u: User, patch: ProfilePatch): (row: User)
    ensures row.fullName == (if Supplied(patch, "full_name").Some? then Supplied(patch, "full_name") else u.fullName)
    ensures row.phone == (if Supplied(patch, "phone").Some? then Supplied(patch, "phone") else u.phone)
    ensures row.(fullName := u.fullName, phone := u.phone) == u
  {
    u.(fullName := if Supplied(patch, "full_name").Some? then Supplied(patch, "full_name") else u.fullName,
       phone := if Supplied(patch, "phone").Some? then Supplied(patch, "phone") else u.phone)
  }

  /** `update_user_profile`: only `full_name` and `phone` are written, and
      only with non-null values. A phone another user holds breaks the
      unique constraint at commit, which nothing catches; so does building
      the profile of a row that still lacks a full name or phone. */
  function UpdateUserProfile(users: Table, current: Profile, patch: ProfilePatch): (r: Result<(Table, Profile), Error>)
    ensures r == Err(UserNotFound) <==> forall u | u in users :: u.username != current.username
    ensures r.Err? ==> r.error in {UserNotFound, ServerError}
    ensures r == Err(ServerError) ==>
      var row := ProfileRow(Find(users, ByUsername(current.username)).value, patch);
      !HasProfile(row) || exists v | v in users :: v.id != row.id && Clash(v, row)
    ensures r.Ok? ==> |r.value.0| == |users|
    ensures r.Ok? ==>
      var u := Find(users, ByUsername(current.username)).value;
      var (stored, profile) := r.value;
      && profile.id == u.id && profile.username == u.username && profile.email == u.email
      && profile.isActive == u.isActive
      && Some(profile.fullName) == (if Supplied(patch, "full_name").Some? then Supplied(patch, "full_name") else u.fullName)
      && Some(profile.phone) == (if Supplied(patch, "phone").Some? then Supplied(patch, "phone") else u.phone)
      && (forall i | 0 <= i < |users| && users[i].id != u.id :: stored[i] == users[i])
      && (forall i | 0 <= i < |users| && users[i].id == u.id ::
            stored[i] == u.(fullName := Some(profile.fullName), phone := Some(profile.phone)))
    ensures r.Ok? && WellFormed(users) ==> WellFormed(r.value.0)
  {
    match Find(users, ByUsername(current.username))
    case None => Err(UserNotFound)
    case Some(u) =>
      var row := ProfileRow(u, patch);
      match Update(users, row)
      case None => Err(ServerError)
      case Some(stored) =>
        match ProfileOf(row)
        case Err(e) => Err(e)
        case Ok(profile) => Ok((stored, profile))
  }

  /** In a table that keeps its unique constraints, a profile update of a
      stored user fails exactly when it supplies a phone another user
      already holds. */
  lemma ProfileUpdateFailsOnTakenPhone(users: Table, current: Profile, patch: ProfilePatch)
    requires WellFormed(users)
    requires exists u | u in users :: u.username == current.username && HasProfile(u)
    ensures var u := Find(users, ByUsername(current.username)).value;
            UpdateUserProfile(users, current, patch) == Err(ServerError)
            <==> exists v | v in users :: v.id != u.id && Supplied(patch, "phone").Some? && v.phone == Supplied(patch, "phone")
  {
    var w :| w in users && w.username == current.username && HasProfile(w);
    FindIsUnique(users, w, ByUsername(current.username));
    var u := Find(users, ByUsername(current.username)).value;
    var row := ProfileRow(u, patch);
    if Update(users, row).None? {
      var v :| v in users && v.id != row.id && Clash(v, row);
      DistinctRowsDoNotClash(users, u, v);
    }
  }

  /** Keys outside the allow-list make no difference: the update equals the
      update with the patch cut down to `full_name` and `phone`. */
  lemma ProfileUpdateIgnoresOtherKeys(users: Table, current: Profile, patch: ProfilePatch)
    ensures var allowed := map k | k in patch && k in {"full_name", "phone"} :: patch[k];
            UpdateUserProfile(users, current, patch) == UpdateUserProfile(users, current, allowed)
  {
    var allowed := map k | k in patch && k in {"full_name", "phone"} :: patch[k];
    assert Supplied(allowed, "full_name") == Supplied(patch, "full_name");
    assert Supplied(allowed, "phone") == Supplied(patch, "phone");
  }
}

=== FILE: bookings.dfy ===
/** `BookingController` of `app/controllers/bookingController.py`: bookings
    of an estate by a user, with creation, lookup, the filtered and paged
    listing, partial update, deletion and the per-user and per-estate
    listings. */
module Bookings {
  import opened Wrappers
  import opened Errors
  import Tables

  /** A row of `bookings`. Dates and status are free text columns. */
  datatype Booking = Booking(
    id: int,
    startDate: string,
    endDate: string,
    status: string,
    numPersons: int,
    userId: int,
    estateId: int)

  type Table = seq<Booking>

  /** The primary key. */
  predicate WellFormed(bookings: Table)
  {
    forall i, j | 0 <= i < j < |bookings| :: bookings[i].id != bookings[j].id
  }

  /** `num_persons` is declared `gt=0` in `BookingCreate` and `BookingUpdate`,
      so every row written through the controller has a positive head count. */
  predicate PositiveHeadCounts(bookings: Table)
  {
    forall b | b in bookings :: b.numPersons > 0
  }

  function FindById(bookings: Table, id: int): (r: Option<Booking>)
    ensures r.Some? ==> r.value in bookings && r.value.id == id
    ensures r.None? <==> forall b | b in bookings :: b.id != id
  {
    Tables.FindFirst(bookings, (b: Booking) => b.id == id)
  }

  /** In a well-formed table the key lookup finds the one row with that key. */
  lemma FindByIdUnique(bookings: Table, b: Booking)
    requires WellFormed(bookings)
    requires b in bookings
    ensures FindById(bookings, b.id) == Some(b)
  {
    var found := FindById(bookings, b.id).value;
    var i :| 0 <= i < |bookings| && bookings[i] == b;
    var j :| 0 <= j < |bookings| && bookings[j] == found;
    if i < j {
      assert bookings[i].id != bookings[j].id;
    } else if j < i {
      assert bookings[j].id != bookings[i].id;
    }
  }

  /** The fields of `BookingCreate`. */
  datatype BookingCreate = BookingCreate(
    startDate: string, endDate: string, status: string, numPersons: int, userId: int, estateId: int)

  /** `create_booking`: the booking is stored under the next key with
      exactly the supplied fields. */
  function CreateBooking(bookings: Table, data: BookingCreate): (r: (Table, Booking))
    ensures var (stored, b) := r;
      && stored == bookings + [b]
      && (forall x | x in bookings :: x.id != b.id)
      && b == Booking(b.id, data.startDate, data.endDate, data.status, data.numPersons, data.userId, data.estateId)
    ensures WellFormed(bookings) ==> WellFormed(r.0)
    ensures PositiveHeadCounts(bookings) && data.numPersons > 0 ==> PositiveHeadCounts(r.0)
  {
    var id := Tables.NextId(bookings, (b: Booking) => b.id);
    var row := Booking(id, data.startDate, data.endDate, data.status, data.numPersons, data.userId, data.estateId);
    assert forall x | x in bookings :: x.id != id;
    (bookings + [row], row)
  }

  /** `get_booking_by_id`. */
  function GetBooking(bookings: Table, id: int): (r: Result<Booking, Error>)
    ensures r.Err? <==> forall b | b in bookings :: b.id != id
    ensures r.Err? ==> r.error == BookingNotFound
    ensures r.Ok? ==> r.value in bookings && r.value.id == id
  {
    match FindById(bookings, id)
    case None => Err(BookingNotFound)
    case Some(b) => Ok(b)
  }

  /** A created booking is the one fetched under its new key. */
  lemma CreateThenGet(bookings: Table, data: BookingCreate)
    requires WellFormed(bookings)
    ensures var (stored, b) := CreateBooking(bookings, data);
            GetBooking(stored, b.id) == Ok(b)
  {
    var (stored, b) := CreateBooking(bookings, data);
    assert b in stored;
    FindByIdUnique(stored, b);
  }

  /** A query parameter of `get_all_bookings` filters only when it is
      truthy: a missing or zero id, or a missing or empty status, is no
      filter at all. */
  predicate IdGiven(filter: Option<int>)
  {
    filter.Some? && filter.value != 0
  }

  predicate StatusGiven(filter: Option<string>)
  {
    filter.Some? && filter.value != ""
  }

  /** Whether a booking passes the three optional filters. */
  predicate Selected(b: Booking, userId: Option<int>, estateId: Option<int>, status: Option<string>)
  {
    && (IdGiven(userId) ==> b.userId == userId.value)
    && (IdGiven(estateId) ==> b.estateId == estateId.value)
    && (StatusGiven(status) ==> b.status == status.value)
  }

  /** The bookings passing the filters, in table order. */
  function SelectedRows(bookings: Table, userId: Option<int>, estateId: Option<int>, status: Option<string>): (r: Table)
    ensures forall b | b in r :: b in bookings && Selected(b, userId, estateId, status)
    ensures forall b | b in bookings && Selected(b, userId, estateId, status) :: b in r
  {
    Tables.Filter(bookings, (b: Booking) => Selected(b, userId, estateId, status))
  }

  /** `get_all_bookings(skip, limit, user_id, estate_id, status)`: the
      filters are conjoined, then the window `.offset(skip).limit(limit)`
      selects is taken, in table order. */
  function GetAllBookings(bookings: Table, skip: nat, limit: nat, userId: Option<int>, estateId: Option<int>, status: Option<string>): (r: seq<Booking>)
    ensures |r| <= limit
    ensures Tables.IsPage(r, SelectedRows(bookings, userId, estateId, status), skip, limit)
    ensures forall b | b in r :: b in bookings
    ensures forall b | b in r ::
      && (IdGiven(userId) ==> b.userId == userId.value)
      && (IdGiven(estateId) ==> b.estateId == estateId.value)
      && (StatusGiven(status) ==> b.status == status.value)
  {
    var selected := SelectedRows(bookings, userId, estateId, status);
    var page := Tables.Page(selected, skip, limit);
    assert forall i | 0 <= i < |page| :: page[i] in selected;
    page
  }

  /** Skipping nothing with a large enough limit, a booking is listed
      exactly when it passes every filter that is given. */
  lemma FirstPageListsExactlySelected(bookings: Table, limit: nat, userId: Option<int>, estateId: Option<int>, status: Option<string>, b: Booking)
    requires |bookings| <= limit
    requires b in bookings
    ensures b in GetAllBookings(bookings, 0, limit, userId, estateId, status) <==>
      && (IdGiven(userId) ==> b.userId == userId.value)
      && (IdGiven(estateId) ==> b.estateId == estateId.value)
      && (StatusGiven(status) ==> b.status == status.value)
  {
    var selected := SelectedRows(bookings, userId, estateId, status);
    if Selected(b, userId, estateId, status) {
      var i :| 0 <= i < |selected| && selected[i] == b;
      assert GetAllBookings(bookings, 0, limit, userId, estateId, status)[i] == b;
    }
  }

  /** Passing `user_id=0`, `estate_id=0` or `status=""` is the same as not
      passing them. */
  lemma FalsyFiltersIgnored(bookings: Table, skip: nat, limit: nat)
    ensures GetAllBookings(bookings, skip, limit, Some(0), Some(0), Some("")) == GetAllBookings(bookings, skip, limit, None, None, None)
    ensures GetAllBookings(bookings, skip, limit, None, None, None) == Tables.Page(bookings, skip, limit)
  {
    NoFilterKeepsAll(bookings, Some(0), Some(0), Some(""));
    NoFilterKeepsAll(bookings, None, None, None);
  }

  lemma {:induction false} NoFilterKeepsAll(bookings: Table, userId: Option<int>, estateId: Option<int>, status: Option<string>)
    requires !IdGiven(userId) && !IdGiven(estateId) && !StatusGiven(status)
    ensures SelectedRows(bookings, userId, estateId, status) == bookings
  {
    if bookings != [] {
      NoFilterKeepsAll(bookings[1..], userId, estateId, status);
      assert [bookings[0]] + bookings[1..] == bookings;
    }
  }

  /** The fields of `BookingUpdate` a request sets. */
  datatype BookingPatch = BookingPatch(
    startDate: Option<string>,
    endDate: Option<string>,
    status: Option<string>,
    numPersons: Option<int>)

  const NoChanges := BookingPatch(None, None, None, None)

  function Patched(b: Booking, patch: BookingPatch): (row: Booking)
    ensures row.id == b.id && row.userId == b.userId && row.estateId == b.estateId
    ensures row.startDate == Or(patch.startDate, b.startDate) && row.endDate == Or(patch.endDate, b.endDate)
    ensures row.status == Or(patch.status, b.status) && row.numPersons == Or(patch.numPersons, b.numPersons)
  {
    Booking(b.id, Or(patch.startDate, b.startDate), Or(patch.endDate, b.endDate), Or(patch.status, b.status),
            Or(patch.numPersons, b.numPersons), b.userId, b.estateId)
  }

  function Replace(bookings: Table, row: Booking): (r: Table)
    ensures |r| == |bookings|
    ensures forall i | 0 <= i < |bookings| :: r[i] == if bookings[i].id == row.id then row else bookings[i]
  {
    Tables.ReplaceByKey(bookings, row, (x: Booking) => x.id)
  }

  /** `update_booking`: 404 for an unknown id; otherwise the supplied fields
      are written and nothing else changes. The user and estate of a
      booking cannot be changed. */
  function UpdateBooking(bookings: Table, id: int, patch: BookingPatch): (r: Result<(Table, Booking), Error>)
    ensures r.Err? <==> forall b | b in bookings :: b.id != id
    ensures r.Err? ==> r.error == BookingNotFound
    ensures r.Ok? ==>
      var stored := FindById(bookings, id).value;
      var (table, b) := r.value;
      && b == Patched(stored, patch)
      && |table| == |bookings|
      && (forall i | 0 <= i < |bookings| && bookings[i].id != id :: table[i] == bookings[i])
      && (forall i | 0 <= i < |bookings| && bookings[i].id == id :: table[i] == b)
    ensures r.Ok? && WellFormed(bookings) ==> WellFormed(r.value.0)
    ensures r.Ok? && PositiveHeadCounts(bookings) && (patch.numPersons.Some? ==> patch.numPersons.value > 0) ==>
      PositiveHeadCounts(r.value.0)
  {
    match FindById(bookings, id)
    case None => Err(BookingNotFound)
    case Some(b) =>
      var row := Patched(b, patch);
      var table := Replace(bookings, row);
      assert forall x | x in table :: x in bookings || x == row;
      Ok((table, row))
  }

  /** An update that sets nothing leaves the table as it was. */
  lemma UpdateNothingChangesNothing(bookings: Table, b: Booking)
    requires WellFormed(bookings)
    requires b in bookings
    ensures UpdateBooking(bookings, b.id, NoChanges) == Ok((bookings, b))
  {
    FindByIdUnique(bookings, b);
    var table := Replace(bookings, b);
    forall i | 0 <= i < |bookings| ensures table[i] == bookings[i] {
      if bookings[i].id == b.id {
        FindByIdUnique(bookings, bookings[i]);
      }
    }
    assert table == bookings;
    assert Patched(b, NoChanges) == b;
  }

  /** Update round trip: after an update the booking fetched under the same
      key is the patched row. */
  lemma UpdateThenGet(bookings: Table, id: int, patch: BookingPatch)
    requires WellFormed(bookings)
    requires UpdateBooking(bookings, id, patch).Ok?
    ensures var (stored, row) := UpdateBooking(bookings, id, patch).value;
            GetBooking(stored, id) == Ok(row) && row == Patched(FindById(bookings, id).value, patch)
  {
    var (stored, row) := UpdateBooking(bookings, id, patch).value;
    var b := FindById(bookings, id).value;
    var i :| 0 <= i < |bookings| && bookings[i] == b;
    assert stored[i] == row;
    FindByIdUnique(stored, row);
  }

  /** `delete_booking`: 404 for an unknown id; otherwise the row is gone and
      every other row stays. */
  function DeleteBooking(bookings: Table, id: int): (r: Result<Table, Error>)
    ensures r.Err? <==> forall b | b in bookings :: b.id != id
    ensures r.Err? ==> r.error == BookingNotFound
    ensures r.Ok? ==> forall b | b in r.value :: b in bookings && b.id != id
    ensures r.Ok? ==> forall b | b in bookings && b.id != id :: b in r.value
  {
    match FindById(bookings, id)
    case None => Err(BookingNotFound)
    case Some(_) => Ok(Tables.Filter(bookings, (x: Booking) => x.id != id))
  }

  /** A deleted booking is not found again, and deleting it twice is 404. */
  lemma DeleteThenNotFound(bookings: Table, id: int)
    requires DeleteBooking(bookings, id).Ok?
    ensures var after := DeleteBooking(bookings, id).value;
            GetBooking(after, id) == Err(BookingNotFound) && DeleteBooking(after, id) == Err(BookingNotFound)
  {
  }

  /** `get_bookings_by_user`: every booking of that user, unpaged. */
  function BookingsByUser(bookings: Table, userId: int): (r: seq<Booking>)
    ensures forall b | b in r :: b in bookings && b.userId == userId
    ensures forall b | b in bookings && b.userId == userId :: b in r
  {
    Tables.Filter(bookings, (b: Booking) => b.userId == userId)
  }

  /** `get_bookings_by_estate`: every booking of that estate, unpaged. */
  function BookingsByEstate(bookings: Table, estateId: int): (r: seq<Booking>)
    ensures forall b | b in r :: b in bookings && b.estateId == estateId
    ensures forall b | b in bookings && b.estateId == estateId :: b in r
  {
    Tables.Filter(bookings, (b: Booking) => b.estateId == estateId)
  }

  /** For a non-zero user id, the per-user listing is the general listing
      filtered by that user with a page that holds everything. */
  lemma {:induction false} ByUserIsFilteredListing(bookings: Table, userId: int)
    requires userId != 0
    ensures BookingsByUser(bookings, userId) == GetAllBookings(bookings, 0, |bookings|, Some(userId), None, None)
  {
    SameFilter(bookings, userId);
    var selected := Tables.Filter(bookings, (b: Booking) => Selected(b, Some(userId), None, None));
    assert Tables.Page(selected, 0, |bookings|) == selected;
  }

  lemma {:induction false} SameFilter(bookings: Table, userId: int)
    requires userId != 0
    ensures Tables.Filter(bookings, (b: Booking) => b.userId == userId)
         == Tables.Filter(bookings, (b: Booking) => Selected(b, Some(userId), None, None))
  {
    if bookings != [] {
      SameFilter(bookings[1..], userId);
    }
  }

  /** For a non-zero estate id, the per-estate listing is the general
      listing filtered by that estate with a page that holds everything. */
  lemma {:induction false} ByEstateIsFilteredListing(bookings: Table, estateId: int)
    requires estateId != 0
    ensures BookingsByEstate(bookings, estateId) == GetAllBookings(bookings, 0, |bookings|, None, Some(estateId), None)
  {
    SameEstateFilter(bookings, estateId);
    var selected := Tables.Filter(bookings, (b: Booking) => Selected(b, None, Some(estateId), None));
    assert Tables.Page(selected, 0, |bookings|) == selected;
  }

  lemma {:induction false} SameEstateFilter(bookings: Table, estateId: int)
    requires estateId != 0
    ensures Tables.Filter(bookings, (b: Booking) => b.estateId == estateId)
         == Tables.Filter(bookings, (b: Booking) => Selected(b, None, Some(estateId), None))
  {
    if bookings != [] {
      SameEstateFilter(bookings[1..], estateId);
    }
  }

  /** `user_id=0` lists every booking in the general listing, while the
      per-user listing for user 0 keeps only that user's rows. */
  lemma ZeroUserIdDiffers(b: Booking)
    requires b.userId == 1
    ensures b in GetAllBookings([b], 0, 1, Some(0), None, None)
    ensures BookingsByUser([b], 0) == []
  {
    FirstPageListsExactlySelected([b], 1, Some(0), None, None, b);
  }
}

=== FILE: clients.dfy ===
/** The client endpoints of `app/routes/client.py`. A client is a user whose
    id also appears in the `clients` table (`Client.id_client`, a foreign
    key to `users.id`); its public view joins the two. Creation and update
    check the unique user columns themselves before writing; deletion is a
    soft delete through `users.is_active`. */
module Clients {
  import opened Wrappers
  import opened Utf8
  import opened Credentials
  import opened Users
  import opened Errors
  import Tables

  /** The two tables the endpoints touch. */
  datatype Store = Store(users: Table, clients: set<int>)

  /** `ClientResponse`: the joined client and user rows. */
  datatype ClientView = ClientView(
    idClient: int,
    username: string,
    email: string,
    fullName: Option<string>,
    phone: Option<string>,
    isActive: int)

  function ViewOf(u: User): (v: ClientView)
    ensures v.idClient == u.id && v.username == u.username && v.email == u.email
    ensures v.fullName == u.fullName && v.phone == u.phone && v.isActive == u.isActive
  {
    ClientView(u.id, u.username, u.email, u.fullName, u.phone, u.isActive)
  }

  /** The module's own `get_password_hash`, as written: passlib hands the
      whole UTF-8 encoding to bcrypt, which reads its first 72 bytes, so the
      cut may fall inside a character. */
  function PasslibHash(password: string, salt: Salt): (h: PasswordHash)
    ensures h.key <= Encode(password)
    ensures |h.key| == if |Encode(password)| <= MaxKeyBytes then |Encode(password)| else MaxKeyBytes
  {
    HashPw(Encode(password), salt)
  }

  /** A password whose 72-byte cut splits a character is hashed under a key
      `verify_password` of app/utils/auth.py never produces, so the
      account cannot log in through the authentication endpoints. */
  lemma PasslibHashRejectsSplitPassword(password: string, salt: Salt)
    requires |Encode(password)| > MaxKeyBytes
    requires !Valid(Encode(password)[..MaxKeyBytes])
    ensures !VerifyPassword(password, PasslibHash(password, salt))
  {
  }

  /** ASCII text encodes one byte per character. */
  lemma {:induction false} AsciiEncodeLength(s: string)
    requires forall i | 0 <= i < |s| :: s[i] as int < 0x80
    ensures |Encode(s)| == |s|
  {
    if s != [] {
      AsciiEncodeLength(s[1..]);
    }
  }

  /** A concrete case: 71 ASCII letters followed by U+00E9 encode to 73
      bytes, the cut at 72 splits the last character, and the password
      hashed by the client endpoints does not verify. */
  lemma PasslibSplitExample(salt: Salt)
    ensures var password := seq(71, _ => 'a') + ['\U{00E9}'];
            |Encode(password)| == 73 && !VerifyPassword(password, PasslibHash(password, salt))
  {
    var letters := seq(71, _ => 'a');
    var password := letters + ['\U{00E9}'];
    AsciiEncodeLength(letters);
    EncodeAppend(letters, ['\U{00E9}']);
    assert Encode(['\U{00E9}']) == EncodeChar('\U{00E9}') + Encode([]);
    var bs := Encode(password);
    assert password[..|password|] == password;
    if Valid(bs[..MaxKeyBytes]) {
      ValidPrefixIsBoundary(password, MaxKeyBytes);
      var i :| 0 <= i <= |password| && Encode(password[..i]) == bs[..MaxKeyBytes];
      if i <= 71 {
        assert password[..i] == letters[..i];
        AsciiEncodeLength(letters[..i]);
      }
    }
    PasslibHashRejectsSplitPassword(password, salt);
  }

  /** A passlib hash verifies on the login path exactly when the password
      fits in 72 bytes or its 72-byte cut ends on a character boundary. */
  lemma PasslibVerifiesExactly(password: string, salt: Salt)
    ensures VerifyPassword(password, PasslibHash(password, salt))
        <==> |Encode(password)| <= MaxKeyBytes || Valid(Encode(password)[..MaxKeyBytes])
  {
    var bs := Encode(password);
    if |bs| > MaxKeyBytes && Valid(bs[..MaxKeyBytes]) {
      assert TruncatePassword(password) == bs[..MaxKeyBytes];
    }
  }

  /** The hash function the client endpoints call: `Passlib` is the module's
      own `get_password_hash`, as written; `Application` is the corrected
      choice, the character-preserving `get_password_hash` of
      app/utils/auth.py that the login path verifies against. */
  datatype Hasher = Passlib | Application

  function ClientHash(hasher: Hasher, password: string, salt: Salt): (h: PasswordHash)
    ensures h.salt == salt
    ensures VerifyPassword(password, h)
        <==> hasher == Application || |Encode(password)| <= MaxKeyBytes || Valid(Encode(password)[..MaxKeyBytes])
  {
    match hasher
    case Passlib => PasslibVerifiesExactly(password, salt); PasslibHash(password, salt)
    case Application => HashPassword(password, salt)
  }

  /** `if client.phone:` an empty phone is not checked. */
  predicate PhoneGiven(phone: Option<string>)
  {
    phone.Some? && phone.value != ""
  }

  /** The fields of `ClientCreate`. */
  datatype ClientCreate = ClientCreate(username: string, email: string, fullName: Option<string>, phone: Option<string>, password: string)

  /** Every client id names a user, and the users table keeps its unique
      constraints. */
  predicate Consistent(store: Store)
  {
    WellFormed(store.users) && forall c | c in store.clients :: Find(store.users, ById(c)).Some?
  }

  /** `create_client`: username, then email, then a given phone must be
      free; then the user row and the client row are written together, and
      any failure of the write is a 500. */
  function CreateClient(hasher: Hasher, salt: Salt, store: Store, request: ClientCreate): (r: Result<(Store, ClientView), Error>)
    ensures r == Err(UsernameRegistered) <==> exists u | u in store.users :: u.username == request.username
    ensures r == Err(EmailRegistered) <==>
      (forall u | u in store.users :: u.username != request.username)
      && exists u | u in store.users :: u.email == request.email
    ensures r == Err(PhoneRegistered) <==>
      (forall u | u in store.users :: u.username != request.username && u.email != request.email)
      && PhoneGiven(request.phone) && exists u | u in store.users :: u.phone == request.phone
    ensures r.Err? ==> r.error in {UsernameRegistered, EmailRegistered, PhoneRegistered, ClientWriteFailed}
    ensures r.Ok? ==> |r.value.0.users| == |store.users| + 1 && r.value.0.users[..|store.users|] == store.users
    ensures r.Ok? ==>
      var (after, view) := r.value;
      var u := after.users[|store.users|];
      && u.username == request.username && u.email == request.email
      && u.fullName == request.fullName && u.phone == request.phone
      && u.isActive == 1 && u.hashedPassword == ClientHash(hasher, request.password, salt)
      && (forall v | v in store.users :: v.id != u.id)
      && after.clients == store.clients + {u.id}
      && view == ViewOf(u) && view.idClient == u.id
    ensures r.Ok? && WellFormed(store.users) ==> WellFormed(r.value.0.users)
    ensures Consistent(store) && r == Err(ClientWriteFailed) ==>
      request.phone == Some("") && exists u | u in store.users :: u.phone == Some("")
  {
    if Find(store.users, ByUsername(request.username)).Some? then Err(UsernameRegistered)
    else if Find(store.users, ByEmail(request.email)).Some? then Err(EmailRegistered)
    else if PhoneGiven(request.phone) && Find(store.users, ByPhone(request.phone.value)).Some? then Err(PhoneRegistered)
    else
      var row := User(NewId(store.users), request.username, request.email, request.fullName, request.phone,
                      ClientHash(hasher, request.password, salt), 1);
      match Insert(store.users, row)
      case None => Err(ClientWriteFailed)
      case Some(users) =>
        if row.id in store.clients then Err(ClientWriteFailed)
        else
          assert users[|store.users|] == row && users[..|store.users|] == store.users;
          Ok((Store(users, store.clients + {row.id}), ViewOf(row)))
  }

  /** A client created here can log in through the authentication
      endpoints exactly when the stored hash verifies its password. */
  lemma CreatedClientLogsInExactly(hasher: Hasher, salt: Salt, store: Store, request: ClientCreate)
    requires WellFormed(store.users)
    requires CreateClient(hasher, salt, store, request).Ok?
    ensures var after := CreateClient(hasher, salt, store, request).value.0;
            Authenticate(after.users, request.username, request.password).Some?
            <==> hasher == Application || |Encode(request.password)| <= MaxKeyBytes
                 || Valid(Encode(request.password)[..MaxKeyBytes])
  {
    var after := CreateClient(hasher, salt, store, request).value.0;
    var u := after.users[|store.users|];
    assert u.username == request.username && u.isActive == 1;
    assert u.hashedPassword == ClientHash(hasher, request.password, salt);
    AuthenticateExactly(after.users, request.username, request.password, u);
  }

  /** As written, a client whose password's 72-byte cut splits a character
      is created but can never log in. */
  lemma PasslibClientLockedOut(salt: Salt, store: Store, request: ClientCreate)
    requires WellFormed(store.users)
    requires CreateClient(Passlib, salt, store, request).Ok?
    requires |Encode(request.password)| > MaxKeyBytes && !Valid(Encode(request.password)[..MaxKeyBytes])
    ensures Authenticate(CreateClient(Passlib, salt, store, request).value.0.users, request.username, request.password).None?
  {
    CreatedClientLogsInExactly(Passlib, salt, store, request);
  }

  /** With the corrected hash, every client created here can log in with
      the password it was created with. */
  lemma CreatedClientCanLogIn(salt: Salt, store: Store, request: ClientCreate)
    requires WellFormed(store.users)
    requires CreateClient(Application, salt, store, request).Ok?
    ensures var after := CreateClient(Application, salt, store, request).value.0;
            Authenticate(after.users, request.username, request.password).Some?
  {
    CreatedClientLogsInExactly(Application, salt, store, request);
  }

  /** Creation keeps the store consistent. */
  lemma CreateKeepsConsistent(hasher: Hasher, salt: Salt, store: Store, request: ClientCreate)
    requires Consistent(store)
    requires CreateClient(hasher, salt, store, request).Ok?
    ensures Consistent(CreateClient(hasher, salt, store, request).value.0)
  {
    var after := CreateClient(hasher, salt, store, request).value.0;
    var u := after.users[|store.users|];
    forall c | c in after.clients ensures Find(after.users, ById(c)).Some? {
      if c == u.id {
        assert Matches(u, ById(c));
      } else {
        var v := Find(store.users, ById(c)).value;
        assert v in after.users;
      }
    }
  }

  /** The clients the list and get endpoints show: active ones. */
  predicate Listed(store: Store, u: User)
  {
    u.id in store.clients && u.isActive == 1
  }

  /** The joined rows the list endpoint selects from: the active clients,
      in table order. */
  function ActiveClients(store: Store): (r: seq<User>)
    ensures forall u | u in r :: u in store.users && Listed(store, u)
    ensures forall u | u in store.users && Listed(store, u) :: u in r
  {
    Tables.Filter(store.users, (u: User) => Listed(store, u))
  }

  /** `get_clients(skip, limit)`: the window of the active clients that
      `.offset(skip).limit(limit)` selects, as views. The route leaves both
      bounds unchecked, so SQLite's reading of negative ones applies. */
  function GetClients(store: Store, skip: int, limit: int): (r: seq<ClientView>)
    ensures var page := Tables.OffsetLimit(ActiveClients(store), skip, limit);
            |r| == |page| && forall i | 0 <= i < |r| :: r[i] == ViewOf(page[i])
    ensures forall v | v in r :: exists u | u in store.users :: Listed(store, u) && v == ViewOf(u)
  {
    var page := Tables.OffsetLimit(ActiveClients(store), skip, limit);
    var r := seq(|page|, i requires 0 <= i < |page| => ViewOf(page[i]));
    assert forall i | 0 <= i < |r| :: page[i] in ActiveClients(store) by {
      forall i | 0 <= i < |r| ensures page[i] in ActiveClients(store) {
        var active := ActiveClients(store);
        var k := if skip < 0 then 0 else skip;
        if limit >= 0 {
          assert page[i] == active[k + i];
        } else {
          assert page[i] == active[if k < |active| then k else |active|..][i];
        }
      }
    }
    r
  }

  /** A page that starts at the beginning and is long enough shows every
      active client. */
  lemma GetClientsShowsEveryActiveClient(store: Store, limit: nat, u: User)
    requires |store.users| <= limit
    requires u in store.users && Listed(store, u)
    ensures ViewOf(u) in GetClients(store, 0, limit)
  {
    var active := ActiveClients(store);
    assert u in active;
    var page := Tables.OffsetLimit(active, 0, limit);
    var i :| 0 <= i < |active| && active[i] == u;
    assert page[i] == u;
    assert GetClients(store, 0, limit)[i] == ViewOf(u);
  }

  /** The user row of client `id`, active or not (the join of update and
      delete). */
  function ClientRow(store: Store, id: int): (r: Option<User>)
    ensures r.Some? ==> id in store.clients && r.value in store.users && r.value.id == id
    ensures r.None? <==> id !in store.clients || forall u | u in store.users :: u.id != id
  {
    if id in store.clients then Find(store.users, ById(id)) else None
  }

  /** `get_client`: a client that is not active is not found. */
  function GetClient(store: Store, id: int): (r: Result<ClientView, Error>)
    ensures r.Err? ==> r.error == ClientNotFound
    ensures r.Ok? ==> exists u | u in store.users :: u.id == id && Listed(store, u) && r.value == ViewOf(u)
    ensures ClientRow(store, id).None? ==> r.Err?
  {
    match ClientRow(store, id)
    case None => Err(ClientNotFound)
    case Some(u) => if u.isActive != 1 then Err(ClientNotFound) else Ok(ViewOf(u))
  }

  /** In a consistent store, get finds a client exactly when it is active. */
  lemma GetClientExactly(store: Store, u: User)
    requires WellFormed(store.users)
    requires u in store.users
    ensures GetClient(store, u.id) == if Listed(store, u) then Ok(ViewOf(u)) else Err(ClientNotFound)
  {
    FindIsUnique(store.users, u, ById(u.id));
  }

  /** The fields of `ClientUpdate` a request sets. */
  datatype ClientPatch = ClientPatch(
    username: Option<string>,
    email: Option<string>,
    fullName: Option<string>,
    phone: Option<string>,
    password: Option<string>)

  /** A user other than the one with id `self` holds the value `key` selects. */
  predicate HeldByOther(users: Table, self: int, key: Key)
  {
    exists v | v in users :: v.id != self && Matches(v, key)
  }

  /** The row `update_client` writes: the allow-listed supplied fields, with
      a supplied password stored as its hash. */
  function PatchedClient(hasher: Hasher, u: User, patch: ClientPatch, salt: Salt): (row: User)
    ensures row.id == u.id && row.isActive == u.isActive
    ensures row.username == Or(patch.username, u.username) && row.email == Or(patch.email, u.email)
    ensures row.fullName == (if patch.fullName.Some? then patch.fullName else u.fullName)
    ensures row.phone == (if patch.phone.Some? then patch.phone else u.phone)
    ensures patch.password.Some? ==> row.hashedPassword == ClientHash(hasher, patch.password.value, salt)
    ensures patch.password.None? ==> row.hashedPassword == u.hashedPassword
  {
    u.(username := Or(patch.username, u.username),
       email := Or(patch.email, u.email),
       fullName := if patch.fullName.Some? then patch.fullName else u.fullName,
       phone := if patch.phone.Some? then patch.phone else u.phone,
       hashedPassword := if patch.password.Some? then ClientHash(hasher, patch.password.value, salt) else u.hashedPassword)
  }

  /** The three uniqueness checks of `update_client`, each for a supplied
      value that differs from the client's own, against other users only. */
  predicate UsernameTaken(users: Table, u: User, patch: ClientPatch)
  {
    patch.username.Some? && patch.username.value != u.username && HeldByOther(users, u.id, ByUsername(patch.username.value))
  }

  predicate EmailTaken(users: Table, u: User, patch: ClientPatch)
  {
    patch.email.Some? && patch.email.value != u.email && HeldByOther(users, u.id, ByEmail(patch.email.value))
  }

  predicate PhoneTaken(users: Table, u: User, patch: ClientPatch)
  {
    patch.phone.Some? && patch.phone != u.phone && HeldByOther(users, u.id, ByPhone(patch.phone.value))
  }

  /** `update_client`: the checks run in the order username, email, phone;
      the first that fires decides the error. */
  function UpdateClient(hasher: Hasher, salt: Salt, store: Store, id: int, patch: ClientPatch): (r: Result<(Store, ClientView), Error>)
    ensures r == Err(ClientNotFound) <==> ClientRow(store, id).None?
    ensures r == Err(UsernameRegistered) <==>
      ClientRow(store, id).Some? && UsernameTaken(store.users, ClientRow(store, id).value, patch)
    ensures r == Err(EmailRegistered) <==>
      ClientRow(store, id).Some? && !UsernameTaken(store.users, ClientRow(store, id).value, patch)
      && EmailTaken(store.users, ClientRow(store, id).value, patch)
    ensures r == Err(PhoneRegistered) <==>
      ClientRow(store, id).Some? && !UsernameTaken(store.users, ClientRow(store, id).value, patch)
      && !EmailTaken(store.users, ClientRow(store, id).value, patch)
      && PhoneTaken(store.users, ClientRow(store, id).value, patch)
    ensures r.Err? ==> r.error in {ClientNotFound, UsernameRegistered, EmailRegistered, PhoneRegistered, ClientWriteFailed}
    ensures r.Ok? ==>
      var u := ClientRow(store, id).value;
      var (after, view) := r.value;
      && after.clients == store.clients
      && after.users == Replace(store.users, PatchedClient(hasher, u, patch, salt))
      && view == ViewOf(PatchedClient(hasher, u, patch, salt))
    ensures r.Ok? && WellFormed(store.users) ==> WellFormed(r.value.0.users)
  {
    match ClientRow(store, id)
    case None => Err(ClientNotFound)
    case Some(u) =>
      if UsernameTaken(store.users, u, patch) then Err(UsernameRegistered)
      else if EmailTaken(store.users, u, patch) then Err(EmailRegistered)
      else if PhoneTaken(store.users, u, patch) then Err(PhoneRegistered)
      else
        var row := PatchedClient(hasher, u, patch, salt);
        match Update(store.users, row)
        case None => Err(ClientWriteFailed)
        case Some(users) => Ok((Store(users, store.clients), ViewOf(row)))
  }

  /** In a table that keeps its unique constraints, an update that passes
      the three checks always commits: the checks leave out only values the
      client itself holds. */
  lemma UpdatePassingChecksCommits(hasher: Hasher, salt: Salt, store: Store, id: int, patch: ClientPatch)
    requires WellFormed(store.users)
    ensures UpdateClient(hasher, salt, store, id, patch) != Err(ClientWriteFailed)
  {
    if ClientRow(store, id).Some? {
      var u := ClientRow(store, id).value;
      var row := PatchedClient(hasher, u, patch, salt);
      if !UsernameTaken(store.users, u, patch) && !EmailTaken(store.users, u, patch) && !PhoneTaken(store.users, u, patch) {
        forall v | v in store.users && v.id != row.id ensures !Clash(v, row) {
          DistinctRowsDoNotClash(store.users, v, u);
          if v.username == row.username {
            assert Matches(v, ByUsername(row.username));
          }
          if v.email == row.email {
            assert Matches(v, ByEmail(row.email));
          }
        }
      }
    }
  }

  /** Re-submitting a client's own username, email and phone passes every
      uniqueness check and changes nothing, active client or not. */
  lemma ResubmitOwnValues(hasher: Hasher, salt: Salt, store: Store, u: User)
    requires WellFormed(store.users)
    requires u in store.users && u.id in store.clients
    ensures UpdateClient(hasher, salt, store, u.id, ClientPatch(Some(u.username), Some(u.email), None, u.phone, None))
         == Ok((store, ViewOf(u)))
  {
    FindIsUnique(store.users, u, ById(u.id));
    var patch := ClientPatch(Some(u.username), Some(u.email), None, u.phone, None);
    assert PatchedClient(hasher, u, patch, salt) == u;
    UpdateKeepingKeys(store.users, u, u);
    ReplaceWithStoredRow(store.users, u);
  }

  /** In a consistent store an update fails on a taken username exactly
      when another user holds the new name. */
  lemma UpdateUsernameCheckExcludesSelf(hasher: Hasher, salt: Salt, store: Store, u: User, name: string)
    requires WellFormed(store.users)
    requires u in store.users && u.id in store.clients
    ensures var patch := ClientPatch(Some(name), None, None, None, None);
            UpdateClient(hasher, salt, store, u.id, patch) == Err(UsernameRegistered)
            <==> exists v | v in store.users :: v != u && v.username == name
  {
    FindIsUnique(store.users, u, ById(u.id));
    if exists v | v in store.users :: v != u && v.username == name {
      var v :| v in store.users && v != u && v.username == name;
      DistinctRowsDoNotClash(store.users, u, v);
      assert Matches(v, ByUsername(name));
    }
    if HeldByOther(store.users, u.id, ByUsername(name)) {
      var v :| v in store.users && v.id != u.id && Matches(v, ByUsername(name));
      assert v != u;
    }
  }

  /** `delete_client`: an unknown client is 404, an already inactive one
      (`is_active == 0`) is 400, and otherwise the user row stays with
      `is_active` set to 0. */
  function DeleteClient(store: Store, id: int): (r: Result<Store, Error>)
    ensures r == Err(ClientNotFound) <==> ClientRow(store, id).None?
    ensures r == Err(ClientAlreadyDeleted) <==> ClientRow(store, id).Some? && ClientRow(store, id).value.isActive == 0
    ensures r.Err? ==> r.error in {ClientNotFound, ClientAlreadyDeleted}
    ensures r.Ok? ==>
      var u := ClientRow(store, id).value;
      && r.value.clients == store.clients
      && |r.value.users| == |store.users|
      && forall i | 0 <= i < |store.users| ::
           r.value.users[i] == if store.users[i].id == id then u.(isActive := 0) else store.users[i]
  {
    match ClientRow(store, id)
    case None => Err(ClientNotFound)
    case Some(u) =>
      if u.isActive == 0 then Err(ClientAlreadyDeleted)
      else Ok(Store(Replace(store.users, u.(isActive := 0)), store.clients))
  }

  /** After a delete the client is hidden from get, a second delete reports
      it already deleted, and update still finds it. */
  lemma DeleteThenGetAndDeleteAgain(store: Store, u: User)
    requires WellFormed(store.users)
    requires u in store.users && u.id in store.clients && u.isActive != 0
    ensures DeleteClient(store, u.id).Ok?
    ensures var after := DeleteClient(store, u.id).value;
            && GetClient(after, u.id) == Err(ClientNotFound)
            && DeleteClient(after, u.id) == Err(ClientAlreadyDeleted)
            && ClientRow(after, u.id) == Some(u.(isActive := 0))
  {
    FindIsUnique(store.users, u, ById(u.id));
    var row := u.(isActive := 0);
    ReplaceKeepingKeys(store.users, u, row);
    var after := DeleteClient(store, u.id).value;
    FindIsUnique(after.users, row, ById(u.id));
  }
}

=== FILE: credentials.dfy ===
/** The credential hasher of `app/utils/auth.py`: the 72-byte truncation that
    bcrypt's key limit forces, and `get_password_hash` / `verify_password`
    built on it.

    bcrypt itself is modelled as an ideal one-way hash: a stored hash is the
    symbolic term `Bcrypt(salt, key)` recording the salt `bcrypt.gensalt()`
    drew and the key bytes it was computed from, and `bcrypt.checkpw`
    succeeds exactly when it is given the same key bytes. The random salt is a
    parameter. */
module Credentials {
  import opened Utf8

  /** bcrypt reads at most this many key bytes. */
  const MaxKeyBytes: nat := 72

  /** The `while` loop of `_truncate_password_to_bytes`: drop the last byte
      until what remains decodes (the empty sequence always does). */
  function DropUntilValid(bs: seq<byte>): (r: seq<byte>)
    ensures r <= bs
    ensures Valid(r)
    decreases |bs|
  {
    if |bs| == 0 then bs
    else if Valid(bs) then bs
    else DropUntilValid(bs[..|bs| - 1])
  }

  /** `_truncate_password_to_bytes`: the UTF-8 encoding, cut to at most 72
      bytes without splitting a character. */
  function TruncatePassword(password: string): (r: seq<byte>)
    ensures |r| <= MaxKeyBytes
    ensures r <= Encode(password)
    ensures Valid(r)
    ensures |Encode(password)| <= MaxKeyBytes ==> r == Encode(password)
  {
    var bs := Encode(password);
    EncodeValid(password);
    if |bs| > MaxKeyBytes then DropUntilValid(bs[..MaxKeyBytes]) else bs
  }

  /** The character-level reference for truncation: how many leading
      characters of `s` have encodings that fit together in `budget` bytes. */
  function FitCount(s: string, budget: nat): (k: nat)
    ensures k <= |s|
  {
    if s == [] || |EncodeChar(s[0])| > budget then 0
    else 1 + FitCount(s[1..], budget - |EncodeChar(s[0])|)
  }

  /** `FitCount` takes as many characters as fit, and not one more. */
  lemma {:induction false} FitCountMaximal(s: string, budget: nat)
    ensures |Encode(s[..FitCount(s, budget)])| <= budget
    ensures FitCount(s, budget) < |s| ==> |Encode(s[..FitCount(s, budget) + 1])| > budget
  {
    var k := FitCount(s, budget);
    if s == [] {
      assert s[..k] == [];
    } else if |EncodeChar(s[0])| > budget {
      assert k == 0;
      assert s[..1] == [s[0]];
      assert Encode(s[..1]) == EncodeChar(s[0]) + Encode([]);
      assert s[..0] == [];
    } else {
      var e := EncodeChar(s[0]);
      var k' := FitCount(s[1..], budget - |e|);
      FitCountMaximal(s[1..], budget - |e|);
      assert k == k' + 1;
      assert s[..k][0] == s[0];
      assert s[..k][1..] == s[1..][..k'];
      assert Encode(s[..k]) == e + Encode(s[1..][..k']);
      if k < |s| {
        assert s[..k + 1][0] == s[0];
        assert s[..k + 1][1..] == s[1..][..k' + 1];
        assert Encode(s[..k + 1]) == e + Encode(s[1..][..k' + 1]);
      }
    }
  }

  /** When the whole encoding fits, every character is kept. */
  lemma FitCountAll(s: string, budget: nat)
    requires |Encode(s)| <= budget
    ensures FitCount(s, budget) == |s|
  {
    FitCountMaximal(s, budget);
  }

  /** `DropUntilValid` stops at the longest prefix that decodes: it never
      goes below a prefix that decodes. */
  lemma {:induction false} DropUntilValidLongest(bs: seq<byte>, n: nat)
    requires n <= |bs|
    requires Valid(bs[..n])
    ensures n <= |DropUntilValid(bs)|
    decreases |bs|
  {
    if |bs| != 0 && !Valid(bs) {
      assert bs[..|bs|] == bs;
      var shorter := bs[..|bs| - 1];
      assert shorter[..n] == bs[..n];
      DropUntilValidLongest(shorter, n);
    }
  }

  /** Truncation keeps exactly the characters whose encodings fit in 72
      bytes: the byte-level loop agrees with the character-level reference. */
  lemma TruncateKeepsFittingCharacters(password: string)
    ensures TruncatePassword(password) == Encode(password[..FitCount(password, MaxKeyBytes)])
  {
    var bs := Encode(password);
    var k := FitCount(password, MaxKeyBytes);
    var kept := Encode(password[..k]);
    if |bs| <= MaxKeyBytes {
      FitCountAll(password, MaxKeyBytes);
      assert password[..|password|] == password;
    } else {
      var r := TruncatePassword(password);
      var window := bs[..MaxKeyBytes];
      assert r == DropUntilValid(window);
      FitCountMaximal(password, MaxKeyBytes);
      EncodePrefix(password, k);
      EncodeValid(password[..k]);
      // the kept characters decode and fit in the window, so the loop keeps at least them
      assert window[..|kept|] == kept;
      DropUntilValidLongest(window, |kept|);
      // what the loop keeps decodes, so it ends on a character boundary
      assert r == bs[..|r|];
      BoundaryWithinFit(password, |r|);
      assert r == bs[..|kept|] == kept;
    }
  }

  /** A character boundary within the first 72 bytes lies at or before the
      last character that fits. */
  lemma BoundaryWithinFit(password: string, n: nat)
    requires n <= MaxKeyBytes && n <= |Encode(password)|
    requires Valid(Encode(password)[..n])
    ensures n <= |Encode(password[..FitCount(password, MaxKeyBytes)])|
  {
    var k := FitCount(password, MaxKeyBytes);
    ValidPrefixIsBoundary(password, n);
    var i :| 0 <= i <= |password| && Encode(password[..i]) == Encode(password)[..n];
    FitCountMaximal(password, MaxKeyBytes);
    if i > k {
      EncodePrefixMonotone(password, k + 1, i);
      assert false;
    }
    EncodePrefixMonotone(password, i, k);
  }

  /** The result is the longest prefix of at most 72 bytes that decodes. */
  lemma TruncateIsLongestValidPrefix(password: string, n: nat)
    requires |TruncatePassword(password)| < n <= MaxKeyBytes
    requires n <= |Encode(password)|
    ensures !Valid(Encode(password)[..n])
  {
    var bs := Encode(password);
    if Valid(bs[..n]) {
      assert |bs| > MaxKeyBytes;
      assert bs[..MaxKeyBytes][..n] == bs[..n];
      DropUntilValidLongest(bs[..MaxKeyBytes], n);
      assert false;
    }
  }

  /** Only the tail of a single character is ever dropped: a password
      longer than 72 bytes keeps at least 69 of them. */
  lemma TruncateDropsAtMostOneCharacter(password: string)
    requires |Encode(password)| > MaxKeyBytes
    ensures |TruncatePassword(password)| > MaxKeyBytes - 4
  {
    var k := FitCount(password, MaxKeyBytes);
    TruncateKeepsFittingCharacters(password);
    FitCountMaximal(password, MaxKeyBytes);
    assert password[..|password|] == password;
    EncodePrefixStep(password, k);
  }

  /** Truncation is idempotent: the kept characters, encoded and truncated
      again, give back the same bytes. */
  lemma TruncateIdempotent(password: string)
    ensures TruncatePassword(password[..FitCount(password, MaxKeyBytes)]) == TruncatePassword(password)
  {
    var k := FitCount(password, MaxKeyBytes);
    TruncateKeepsFittingCharacters(password);
    FitCountMaximal(password, MaxKeyBytes);
  }

  /** The salt `bcrypt.gensalt()` drew; randomness is a parameter. */
  type Salt = nat

  /** A stored bcrypt hash: the salt it embeds and, abstractly, the key bytes
      it was computed from (never readable from the real hash string). */
  datatype PasswordHash = Bcrypt(salt: Salt, key: seq<byte>)

  /** `bcrypt.hashpw` under the ideal-hash model. bcrypt itself reads only
      the first 72 bytes of the key, whatever they are. */
  function HashPw(key: seq<byte>, salt: Salt): (h: PasswordHash)
    ensures h.salt == salt
    ensures |key| <= MaxKeyBytes ==> h.key == key
    ensures |key| > MaxKeyBytes ==> h.key == key[..MaxKeyBytes]
  {
    Bcrypt(salt, if |key| <= MaxKeyBytes then key else key[..MaxKeyBytes])
  }

  /** `bcrypt.checkpw`: recompute with the embedded salt and compare. */
  predicate CheckPw(key: seq<byte>, stored: PasswordHash)
  {
    HashPw(key, stored.salt) == stored
  }

  /** `get_password_hash`. */
  function HashPassword(password: string, salt: Salt): (h: PasswordHash)
    ensures h.salt == salt
    ensures |h.key| <= MaxKeyBytes
    ensures VerifyPassword(password, h)
  {
    HashPw(TruncatePassword(password), salt)
  }

  /** `verify_password`. */
  predicate VerifyPassword(plain: string, stored: PasswordHash)
  {
    CheckPw(TruncatePassword(plain), stored)
  }

  /** Hashing and verifying truncate identically, so a password verifies
      against a hash of another exactly when both keep the same characters
      within the 72-byte limit, whatever the salt. */
  lemma VerifyIffSameKeptCharacters(plain: string, original: string, salt: Salt)
    ensures VerifyPassword(plain, HashPassword(original, salt))
        <==> plain[..FitCount(plain, MaxKeyBytes)] == original[..FitCount(original, MaxKeyBytes)]
  {
    TruncateKeepsFittingCharacters(plain);
    TruncateKeepsFittingCharacters(original);
    if VerifyPassword(plain, HashPassword(original, salt)) {
      EncodeInjective(plain[..FitCount(plain, MaxKeyBytes)], original[..FitCount(original, MaxKeyBytes)]);
    }
  }
}

=== FILE: errors.dfy ===
/** The `HTTPException`s the modelled code raises, one constructor per
    distinct status and detail message; the comment on each gives its
    status code. */
module Errors {

  datatype Error =
    // app/controllers/authController.py and app/controllers/userController.py
    | UsernameTaken          // 400 "El nombre de usuario ya existe"
    | EmailTaken             // 400 "El email ya está registrado"
    | IntegrityFailure       // 400 "Error de integridad en la base de datos"
    | BadCredentials         // 401 "Credenciales incorrectas"
    | WrongCurrentPassword   // 400 "La contraseña actual es incorrecta"
    | ExpiredToken           // 400 "Token inválido o expirado"
    | InvalidToken           // 400 "Token inválido"
    | UserNotFound           // 404 "Usuario no encontrado"
    // app/utils/middleware.py
    | CouldNotValidate       // 401 "No se pudieron validar las credenciales"
    | InactiveUser           // 401 "Usuario inactivo"
    | AccessDenied           // 403 "Acceso denegado"
    | InactiveForbidden      // 403 "Usuario inactivo"
    // app/routes/client.py
    | UsernameRegistered     // 400 "Username already registered"
    | EmailRegistered        // 400 "Email already registered"
    | PhoneRegistered        // 400 "Phone already registered"
    | ClientNotFound         // 404 "Client not found"
    | ClientAlreadyDeleted   // 400 "Client is already deleted"
    | ClientWriteFailed      // 500 "Error creating client" / "Error updating client"
    // app/controllers/experienceController.py
    | TitleTaken             // 400 "Ya existe una experiencia con este título"
    | OwnerUnknown           // 400 "El usuario especificado no existe"
    | ExperienceNotFound     // 404 "Experiencia no encontrada"
    // app/controllers/estateController.py
    | EstateNameTaken        // 400 "Estate name already exists"
    | EstateNotFound         // 404 "Estate not found"
    // app/controllers/bookingController.py
    | BookingNotFound        // 404 "Reserva no encontrada"
    // an exception no handler catches: the framework answers 500
    | ServerError
}

=== FILE: estates.dfy ===
/** The estate endpoints of `app/controllers/estateController.py`: estates
    with a unique name, lookup, partial update, deletion and the services an
    estate offers. */
module Estates {
  import opened Wrappers
  import opened Errors
  import Tables

  /** A row of `estates`. */
  datatype Estate = Estate(id: int, name: string, location: string, size: int, price: int, ownerId: int)

  /** A row of `services`. */
  datatype Service = Service(id: int, name: string, description: Option<string>, category: string, price: int, estateId: int)

  type Table = seq<Estate>

  /** Primary key and the unique `name` column. */
  predicate WellFormed(estates: Table)
  {
    forall i, j | 0 <= i < j < |estates| :: estates[i].id != estates[j].id && estates[i].name != estates[j].name
  }

  function FindById(estates: Table, id: int): (r: Option<Estate>)
    ensures r.Some? ==> r.value in estates && r.value.id == id
    ensures r.None? <==> forall e | e in estates :: e.id != id
  {
    Tables.FindFirst(estates, (e: Estate) => e.id == id)
  }

  function FindByName(estates: Table, name: string): (r: Option<Estate>)
    ensures r.Some? ==> r.value in estates && r.value.name == name
    ensures r.None? <==> forall e | e in estates :: e.name != name
  {
    Tables.FindFirst(estates, (e: Estate) => e.name == name)
  }

  /** In a well-formed table the key lookup finds the one row with that key. */
  lemma FindByIdUnique(estates: Table, e: Estate)
    requires WellFormed(estates)
    requires e in estates
    ensures FindById(estates, e.id) == Some(e)
  {
    var found := FindById(estates, e.id).value;
    var i :| 0 <= i < |estates| && estates[i] == e;
    var j :| 0 <= j < |estates| && estates[j] == found;
    if i < j {
      assert estates[i].id != estates[j].id;
    } else if j < i {
      assert estates[j].id != estates[i].id;
    }
  }

  /** `get_estate`. */
  function GetEstate(estates: Table, id: int): (r: Result<Estate, Error>)
    ensures r.Err? <==> forall e | e in estates :: e.id != id
    ensures r.Err? ==> r.error == EstateNotFound
    ensures r.Ok? ==> r.value in estates && r.value.id == id
  {
    match FindById(estates, id)
    case None => Err(EstateNotFound)
    case Some(e) => Ok(e)
  }

  /** `get_estates(skip, limit)`: the window `.offset(skip).limit(limit)`
      selects from the whole table. Neither bound is validated, so SQLite's
      reading of negative ones applies. */
  function GetEstates(estates: Table, skip: int, limit: int): (r: seq<Estate>)
    ensures limit >= 0 ==> |r| <= limit
    ensures skip >= 0 && limit >= 0 ==> Tables.IsPage(r, estates, skip, limit)
    ensures skip < 0 && limit >= 0 ==> Tables.IsPage(r, estates, 0, limit)
    ensures limit < 0 ==> r == estates[if skip < 0 then 0 else if skip < |estates| then skip else |estates|..]
  {
    Tables.OffsetLimit(estates, skip, limit)
  }

  /** The fields of `EstateCreate`. */
  datatype EstateCreate = EstateCreate(name: string, location: string, size: int, price: int, ownerId: int)

  /** `create_estate`: a taken name is refused; otherwise the estate is
      stored under the next key with the supplied fields. */
  function CreateEstate(estates: Table, data: EstateCreate): (r: Result<(Table, Estate), Error>)
    ensures r.Err? <==> exists e | e in estates :: e.name == data.name
    ensures r.Err? ==> r.error == EstateNameTaken
    ensures r.Ok? ==>
      var (stored, e) := r.value;
      && stored == estates + [e]
      && (forall x | x in estates :: x.id != e.id)
      && e == Estate(e.id, data.name, data.location, data.size, data.price, data.ownerId)
    ensures r.Ok? && WellFormed(estates) ==> WellFormed(r.value.0)
  {
    if FindByName(estates, data.name).Some? then Err(EstateNameTaken)
    else
      var id := Tables.NextId(estates, (e: Estate) => e.id);
      var row := Estate(id, data.name, data.location, data.size, data.price, data.ownerId);
      assert forall x | x in estates :: x.id != id;
      Ok((estates + [row], row))
  }

  /** A created estate is the one fetched under its new key. */
  lemma CreateThenGet(estates: Table, data: EstateCreate)
    requires WellFormed(estates)
    requires CreateEstate(estates, data).Ok?
    ensures var (stored, e) := CreateEstate(estates, data).value;
            GetEstate(stored, e.id) == Ok(e)
  {
    var (stored, e) := CreateEstate(estates, data).value;
    assert e in stored;
    FindByIdUnique(stored, e);
  }

  /** The fields of `EstateUpdate` a request sets. */
  datatype EstatePatch = EstatePatch(
    name: Option<string>,
    location: Option<string>,
    size: Option<int>,
    price: Option<int>,
    ownerId: Option<int>)

  function Patched(e: Estate, patch: EstatePatch): (row: Estate)
    ensures row.id == e.id
    ensures row.name == Or(patch.name, e.name) && row.location == Or(patch.location, e.location)
    ensures row.size == Or(patch.size, e.size) && row.price == Or(patch.price, e.price)
    ensures row.ownerId == Or(patch.ownerId, e.ownerId)
  {
    Estate(e.id, Or(patch.name, e.name), Or(patch.location, e.location), Or(patch.size, e.size),
           Or(patch.price, e.price), Or(patch.ownerId, e.ownerId))
  }

  function Replace(estates: Table, row: Estate): (r: Table)
    ensures |r| == |estates|
    ensures forall i | 0 <= i < |estates| :: r[i] == if estates[i].id == row.id then row else estates[i]
  {
    Tables.ReplaceByKey(estates, row, (x: Estate) => x.id)
  }

  /** `update_estate`: 404 for an unknown id; a new name that differs from
      the current one and is taken is refused; then the supplied fields are
      written. */
  function UpdateEstate(estates: Table, id: int, patch: EstatePatch): (r: Result<(Table, Estate), Error>)
    ensures r.Err? ==> r.error in {EstateNotFound, EstateNameTaken}
    ensures r == Err(EstateNotFound) <==> forall e | e in estates :: e.id != id
    ensures r == Err(EstateNameTaken) <==>
      FindById(estates, id).Some? && patch.name.Some? && patch.name.value != FindById(estates, id).value.name
      && exists e | e in estates :: e.name == patch.name.value
    ensures r.Ok? ==>
      var stored := FindById(estates, id).value;
      r.value.1 == Patched(stored, patch) && r.value.0 == Replace(estates, Patched(stored, patch))
    ensures r.Ok? && WellFormed(estates) ==> WellFormed(r.value.0)
  {
    match FindById(estates, id)
    case None => Err(EstateNotFound)
    case Some(e) =>
      if patch.name.Some? && patch.name.value != e.name && FindByName(estates, patch.name.value).Some? then Err(EstateNameTaken)
      else
        var row := Patched(e, patch);
        var r := Replace(estates, row);
        assert WellFormed(estates) ==> WellFormed(r) by {
          if WellFormed(estates) {
            FindByIdUnique(estates, e);
            forall i, j | 0 <= i < j < |r| ensures r[i].id != r[j].id && r[i].name != r[j].name {
              assert estates[i].id != estates[j].id && estates[i].name != estates[j].name;
              if estates[i].id == id {
                assert estates[j] in estates;
              } else if estates[j].id == id {
                assert estates[i] in estates;
              }
            }
          }
        }
        Ok((r, row))
  }

  /** Keeping the current name always passes the name check. */
  lemma UpdateKeepingNameSucceeds(estates: Table, e: Estate, patch: EstatePatch)
    requires WellFormed(estates)
    requires e in estates
    requires patch.name == None || patch.name == Some(e.name)
    ensures UpdateEstate(estates, e.id, patch).Ok?
  {
    FindByIdUnique(estates, e);
  }

  /** Update round trip: after a successful update the estate fetched under
      the same key is the patched row. */
  lemma UpdateThenGet(estates: Table, id: int, patch: EstatePatch)
    requires WellFormed(estates)
    requires UpdateEstate(estates, id, patch).Ok?
    ensures var (stored, row) := UpdateEstate(estates, id, patch).value;
            GetEstate(stored, id) == Ok(row) && row == Patched(FindById(estates, id).value, patch)
  {
    var (stored, row) := UpdateEstate(estates, id, patch).value;
    var e := FindById(estates, id).value;
    var i :| 0 <= i < |estates| && estates[i] == e;
    assert stored[i] == row;
    FindByIdUnique(stored, row);
  }

  /** `delete_estate`: 404 for an unknown id; otherwise the row is gone and
      every other row stays. */
  function DeleteEstate(estates: Table, id: int): (r: Result<Table, Error>)
    ensures r == Err(EstateNotFound) <==> forall e | e in estates :: e.id != id
    ensures r.Err? ==> r.error == EstateNotFound
    ensures r.Ok? ==> forall e | e in r.value :: e in estates && e.id != id
    ensures r.Ok? ==> forall e | e in estates && e.id != id :: e in r.value
  {
    match FindById(estates, id)
    case None => Err(EstateNotFound)
    case Some(_) => Ok(Tables.Filter(estates, (x: Estate) => x.id != id))
  }

  /** A deleted estate cannot be fetched or deleted again. */
  lemma DeleteThenNotFound(estates: Table, id: int)
    requires DeleteEstate(estates, id).Ok?
    ensures var after := DeleteEstate(estates, id).value;
            GetEstate(after, id) == Err(EstateNotFound) && DeleteEstate(after, id) == Err(EstateNotFound)
  {
  }

  /** `get_estate_services`: 404 for an unknown estate, otherwise exactly
      the services whose `estate_id` is this estate's, in table order. */
  function GetEstateServices(estates: Table, services: seq<Service>, id: int): (r: Result<seq<Service>, Error>)
    ensures r.Err? <==> forall e | e in estates :: e.id != id
    ensures r.Err? ==> r.error == EstateNotFound
    ensures r.Ok? ==> forall s | s in r.value :: s in services && s.estateId == id
    ensures r.Ok? ==> forall s | s in services && s.estateId == id :: s in r.value
  {
    match FindById(estates, id)
    case None => Err(EstateNotFound)
    case Some(_) => Ok(Tables.Filter(services, (s: Service) => s.estateId == id))
  }
}

=== FILE: experiences.dfy ===
/** `ExperienceController` of `app/controllers/experienceController.py`:
    experiences offered by users, with a unique title, an owner that must
    exist, partial update, deletion, and the paged by-owner and price-range
    queries. */
module Experiences {
  import opened Wrappers
  import opened Errors
  import Users
  import Tables

  /** A row of `experiences`. */
  datatype Experience = Experience(
    id: int,
    title: string,
    description: string,
    schedule: string,
    duration: int,
    price: int,
    location: string,
    userId: int)

  type Table = seq<Experience>

  /** Primary key and the unique `title` column. */
  predicate WellFormed(experiences: Table)
  {
    forall i, j | 0 <= i < j < |experiences| ::
      experiences[i].id != experiences[j].id && experiences[i].title != experiences[j].title
  }

  /** `get_experience_by_id`. */
  function FindById(experiences: Table, id: int): (r: Option<Experience>)
    ensures r.Some? ==> r.value in experiences && r.value.id == id
    ensures r.None? <==> forall e | e in experiences :: e.id != id
  {
    Tables.FindFirst(experiences, (e: Experience) => e.id == id)
  }

  /** `get_experience_by_title`. */
  function FindByTitle(experiences: Table, title: string): (r: Option<Experience>)
    ensures r.Some? ==> r.value in experiences && r.value.title == title
    ensures r.None? <==> forall e | e in experiences :: e.title != title
  {
    Tables.FindFirst(experiences, (e: Experience) => e.title == title)
  }

  /** In a well-formed table the title lookup finds the one holder. */
  lemma FindByTitleUnique(experiences: Table, e: Experience)
    requires WellFormed(experiences)
    requires e in experiences
    ensures FindByTitle(experiences, e.title) == Some(e)
  {
    var found := FindByTitle(experiences, e.title).value;
    var i :| 0 <= i < |experiences| && experiences[i] == e;
    var j :| 0 <= j < |experiences| && experiences[j] == found;
    if i < j {
      assert experiences[i].title != experiences[j].title;
    } else if j < i {
      assert experiences[j].title != experiences[i].title;
    }
  }

  /** In a well-formed table the key lookup finds the one row with that key. */
  lemma FindByIdUnique(experiences: Table, e: Experience)
    requires WellFormed(experiences)
    requires e in experiences
    ensures FindById(experiences, e.id) == Some(e)
  {
    var found := FindById(experiences, e.id).value;
    var i :| 0 <= i < |experiences| && experiences[i] == e;
    var j :| 0 <= j < |experiences| && experiences[j] == found;
    if i < j {
      assert experiences[i].id != experiences[j].id;
    } else if j < i {
      assert experiences[j].id != experiences[i].id;
    }
  }

  /** `_user_exists`. */
  predicate UserExists(users: Users.Table, userId: int)
  {
    Users.Find(users, Users.ById(userId)).Some?
  }

  /** The fields of `ExperienceCreate`. */
  datatype ExperienceCreate = ExperienceCreate(
    title: string, description: string, schedule: string, duration: int, price: int, location: string, userId: int)

  /** `create_experience`: the title must be free and the owner must exist;
      the new row gets the next key and the supplied fields. */
  function Create(experiences: Table, users: Users.Table, data: ExperienceCreate): (r: Result<(Table, Experience), Error>)
    ensures r == Err(TitleTaken) <==> exists e | e in experiences :: e.title == data.title
    ensures r == Err(OwnerUnknown) <==>
      (forall e | e in experiences :: e.title != data.title) && forall u | u in users :: u.id != data.userId
    ensures r.Err? ==> r.error in {TitleTaken, OwnerUnknown}
    ensures r.Ok? ==>
      var (stored, e) := r.value;
      && stored == experiences + [e]
      && (forall x | x in experiences :: x.id != e.id)
      && e.title == data.title && e.description == data.description && e.schedule == data.schedule
      && e.duration == data.duration && e.price == data.price && e.location == data.location
      && e.userId == data.userId
    ensures r.Ok? && WellFormed(experiences) ==> WellFormed(r.value.0)
  {
    if FindByTitle(experiences, data.title).Some? then Err(TitleTaken)
    else if !UserExists(users, data.userId) then Err(OwnerUnknown)
    else
      var id := Tables.NextId(experiences, (e: Experience) => e.id);
      var row := Experience(id, data.title, data.description, data.schedule, data.duration, data.price, data.location, data.userId);
      assert forall x | x in experiences :: x.id != id;
      Ok((experiences + [row], row))
  }

  /** The fields of `ExperienceUpdate` a request sets. */
  datatype ExperiencePatch = ExperiencePatch(
    title: Option<string>,
    description: Option<string>,
    schedule: Option<string>,
    duration: Option<int>,
    price: Option<int>,
    location: Option<string>,
    userId: Option<int>)

  function Patched(e: Experience, patch: ExperiencePatch): (row: Experience)
    ensures row.id == e.id
    ensures row.title == Or(patch.title, e.title) && row.description == Or(patch.description, e.description)
    ensures row.schedule == Or(patch.schedule, e.schedule) && row.duration == Or(patch.duration, e.duration)
    ensures row.price == Or(patch.price, e.price) && row.location == Or(patch.location, e.location)
    ensures row.userId == Or(patch.userId, e.userId)
  {
    Experience(e.id, Or(patch.title, e.title), Or(patch.description, e.description), Or(patch.schedule, e.schedule),
               Or(patch.duration, e.duration), Or(patch.price, e.price), Or(patch.location, e.location),
               Or(patch.userId, e.userId))
  }

  /** `if experience_data.title:` only a non-empty title is checked. */
  predicate TitleGiven(patch: ExperiencePatch)
  {
    patch.title.Some? && patch.title.value != ""
  }

  /** `if experience_data.user_id:` only a non-zero owner is checked. */
  predicate OwnerGiven(patch: ExperiencePatch)
  {
    patch.userId.Some? && patch.userId.value != 0
  }

  /** The table with row `row.id` replaced by `row`. */
  function Replace(experiences: Table, row: Experience): (r: Table)
    ensures |r| == |experiences|
    ensures forall i | 0 <= i < |experiences| :: r[i] == if experiences[i].id == row.id then row else experiences[i]
  {
    Tables.ReplaceByKey(experiences, row, (x: Experience) => x.id)
  }

  /** The title check of `update_experience`: a non-empty title whose
      holder, as `get_experience_by_title` finds it, is another experience. */
  predicate TitleRefused(experiences: Table, id: int, patch: ExperiencePatch)
  {
    TitleGiven(patch) && FindByTitle(experiences, patch.title.value).Some?
    && FindByTitle(experiences, patch.title.value).value.id != id
  }

  /** `update_experience`: 404 for an unknown id; a non-empty title held by a
      different experience and a non-zero owner that does not exist are
      refused; then every supplied field is written. A write that still
      breaks the unique title (an empty title another row has) is not caught
      and surfaces as a server error. */
  function Update(experiences: Table, users: Users.Table, id: int, patch: ExperiencePatch): (r: Result<(Table, Experience), Error>)
    ensures r == Err(ExperienceNotFound) <==> forall e | e in experiences :: e.id != id
    ensures r == Err(TitleTaken) <==> FindById(experiences, id).Some? && TitleRefused(experiences, id, patch)
    ensures r == Err(TitleTaken) ==>
      TitleGiven(patch) && exists e | e in experiences :: e.title == patch.title.value && e.id != id
    ensures r == Err(OwnerUnknown) <==>
      && FindById(experiences, id).Some? && !TitleRefused(experiences, id, patch)
      && OwnerGiven(patch) && forall u | u in users :: u.id != patch.userId.value
    ensures r.Ok? && OwnerGiven(patch) ==> exists u | u in users :: u.id == patch.userId.value
    ensures r == Err(ServerError) ==>
      exists e | e in experiences :: e.id != id && e.title == Or(patch.title, FindById(experiences, id).value.title)
    ensures r.Err? ==> r.error in {ExperienceNotFound, TitleTaken, OwnerUnknown, ServerError}
    ensures r.Ok? ==>
      var stored := FindById(experiences, id).value;
      r.value.1 == Patched(stored, patch) && r.value.0 == Replace(experiences, Patched(stored, patch))
    ensures r.Ok? && WellFormed(experiences) ==> WellFormed(r.value.0)
  {
    match FindById(experiences, id)
    case None => Err(ExperienceNotFound)
    case Some(e) =>
      if TitleRefused(experiences, id, patch) then Err(TitleTaken)
      else if OwnerGiven(patch) && !UserExists(users, patch.userId.value) then Err(OwnerUnknown)
      else
        var row := Patched(e, patch);
        if exists i | 0 <= i < |experiences| :: experiences[i].id != id && experiences[i].title == row.title then Err(ServerError)
        else
          var r := Replace(experiences, row);
          assert WellFormed(experiences) ==> WellFormed(r) by {
            if WellFormed(experiences) {
              ReplaceKeepsWellFormed(experiences, row);
            }
          }
          Ok((r, row))
  }

  /** Rewriting a row under its own key keeps keys and titles unique when
      no other row holds the new title. */
  lemma ReplaceKeepsWellFormed(experiences: Table, row: Experience)
    requires WellFormed(experiences)
    requires forall i | 0 <= i < |experiences| :: experiences[i].id != row.id ==> experiences[i].title != row.title
    ensures WellFormed(Replace(experiences, row))
  {
    var r := Replace(experiences, row);
    forall i, j | 0 <= i < j < |r| ensures r[i].id != r[j].id && r[i].title != r[j].title {
      assert experiences[i].id != experiences[j].id && experiences[i].title != experiences[j].title;
    }
  }

  /** The title check excludes the experience itself: in a well-formed
      table an update is refused for its title exactly when a different
      experience holds that non-empty title. */
  lemma UpdateTitleCheckExcludesSelf(experiences: Table, users: Users.Table, e: Experience, title: string)
    requires WellFormed(experiences)
    requires e in experiences
    ensures var patch := ExperiencePatch(Some(title), None, None, None, None, None, None);
            Update(experiences, users, e.id, patch) == Err(TitleTaken)
            <==> title != "" && exists x | x in experiences :: x != e && x.title == title
  {
    if exists x | x in experiences :: x != e && x.title == title {
      var x :| x in experiences && x != e && x.title == title;
      FindByTitleUnique(experiences, x);
      var i :| 0 <= i < |experiences| && experiences[i] == e;
      var j :| 0 <= j < |experiences| && experiences[j] == x;
      assert i != j;
      if i < j {
        assert experiences[i].id != experiences[j].id;
      } else {
        assert experiences[j].id != experiences[i].id;
      }
    }
    FindByIdUnique(experiences, e);
  }

  /** Update round trip: after a successful update the experience found
      under the same key is the patched row. */
  lemma UpdateThenFind(experiences: Table, users: Users.Table, id: int, patch: ExperiencePatch)
    requires WellFormed(experiences)
    requires Update(experiences, users, id, patch).Ok?
    ensures var (stored, row) := Update(experiences, users, id, patch).value;
            FindById(stored, id) == Some(row) && row == Patched(FindById(experiences, id).value, patch)
  {
    var (stored, row) := Update(experiences, users, id, patch).value;
    var e := FindById(experiences, id).value;
    var i :| 0 <= i < |experiences| && experiences[i] == e;
    assert stored[i] == row;
    FindByIdUnique(stored, row);
  }

  /** `delete_experience`: 404 for an unknown id; otherwise the row is gone
      and every other row stays, in order. */
  function Delete(experiences: Table, id: int): (r: Result<Table, Error>)
    ensures r == Err(ExperienceNotFound) <==> forall e | e in experiences :: e.id != id
    ensures r.Err? ==> r.error == ExperienceNotFound
    ensures r.Ok? ==> forall e | e in r.value :: e in experiences && e.id != id
    ensures r.Ok? ==> forall e | e in experiences && e.id != id :: e in r.value
    ensures r.Ok? ==> |r.value| < |experiences|
  {
    match FindById(experiences, id)
    case None => Err(ExperienceNotFound)
    case Some(e) =>
      var kept := Tables.Filter(experiences, (x: Experience) => x.id != id);
      FilterDropsMatch(experiences, id, e);
      Ok(kept)
  }

  /** Filtering out a row that is present shortens the table. */
  lemma {:induction false} FilterDropsMatch(experiences: Table, id: int, e: Experience)
    requires e in experiences && e.id == id
    ensures |Tables.Filter(experiences, (x: Experience) => x.id != id)| < |experiences|
  {
    if experiences[0] != e {
      assert e in experiences[1..];
      FilterDropsMatch(experiences[1..], id, e);
    }
  }

  /** A deleted experience is not found again, and deleting it twice is 404. */
  lemma DeleteThenNotFound(experiences: Table, id: int)
    requires Delete(experiences, id).Ok?
    ensures var after := Delete(experiences, id).value;
            FindById(after, id).None? && Delete(after, id) == Err(ExperienceNotFound)
  {
  }

  /** The experiences `user_id` owns, in table order. */
  function Owned(experiences: Table, userId: int): (r: Table)
    ensures forall e | e in r :: e in experiences && e.userId == userId
    ensures forall e | e in experiences && e.userId == userId :: e in r
  {
    Tables.Filter(experiences, (e: Experience) => e.userId == userId)
  }

  /** `get_experiences_by_user(user_id, skip, limit)`: the window of the
      user's experiences `.offset(skip).limit(limit)` selects. */
  function ByUser(experiences: Table, userId: int, skip: nat, limit: nat): (r: seq<Experience>)
    ensures |r| <= limit
    ensures Tables.IsPage(r, Owned(experiences, userId), skip, limit)
    ensures forall e | e in r :: e in experiences && e.userId == userId
  {
    var page := Tables.Page(Owned(experiences, userId), skip, limit);
    assert forall i | 0 <= i < |page| :: page[i] in Owned(experiences, userId);
    page
  }

  /** Skipping nothing with a large enough limit lists all the user's
      experiences. */
  lemma ByUserComplete(experiences: Table, userId: int, limit: nat, e: Experience)
    requires |experiences| <= limit
    requires e in experiences && e.userId == userId
    ensures e in ByUser(experiences, userId, 0, limit)
  {
    var owned := Owned(experiences, userId);
    var i :| 0 <= i < |owned| && owned[i] == e;
    assert ByUser(experiences, userId, 0, limit)[i] == e;
  }

  /** The experiences priced from `minPrice` to `maxPrice`, in table order. */
  function InRange(experiences: Table, minPrice: int, maxPrice: int): (r: Table)
    ensures forall e | e in r :: e in experiences && minPrice <= e.price <= maxPrice
    ensures forall e | e in experiences && minPrice <= e.price <= maxPrice :: e in r
  {
    Tables.Filter(experiences, (e: Experience) => minPrice <= e.price && e.price <= maxPrice)
  }

  /** `get_experiences_by_price_range(min_price, max_price, skip, limit)`:
      the window of the experiences in range. The route refuses
      `min_price > max_price` before calling it; the query itself then
      simply matches nothing. */
  function ByPriceRange(experiences: Table, minPrice: int, maxPrice: int, skip: nat, limit: nat): (r: seq<Experience>)
    ensures |r| <= limit
    ensures Tables.IsPage(r, InRange(experiences, minPrice, maxPrice), skip, limit)
    ensures forall e | e in r :: e in experiences && minPrice <= e.price <= maxPrice
  {
    var page := Tables.Page(InRange(experiences, minPrice, maxPrice), skip, limit);
    assert forall i | 0 <= i < |page| :: page[i] in InRange(experiences, minPrice, maxPrice);
    page
  }

  /** An inverted range matches nothing; a large enough first page of a
      proper range lists every experience priced inside it. */
  lemma ByPriceRangeExactly(experiences: Table, minPrice: int, maxPrice: int, limit: nat, e: Experience)
    requires |experiences| <= limit
    requires e in experiences
    ensures e in ByPriceRange(experiences, minPrice, maxPrice, 0, limit) <==> minPrice <= e.price <= maxPrice
  {
    var inRange := InRange(experiences, minPrice, maxPrice);
    if minPrice <= e.price <= maxPrice {
      var i :| 0 <= i < |inRange| && inRange[i] == e;
      assert ByPriceRange(experiences, minPrice, maxPrice, 0, limit)[i] == e;
    }
  }

  /** `get_all_experiences(skip, limit)`: the window of the whole table. */
  function GetAll(experiences: Table, skip: nat, limit: nat): (r: seq<Experience>)
    ensures |r| <= limit
    ensures Tables.IsPage(r, experiences, skip, limit)
  {
    Tables.Page(experiences, skip, limit)
  }
}

=== FILE: session.dfy ===
/** The session resolver of `app/utils/middleware.py`: from a bearer token
    to the profile of the user it speaks for. It has an optional mode
    (`get_current_user_optional`, which answers `None`) and a required mode
    (`get_current_user_required`, which raises), plus the two guards built
    on the required mode. */
module Session {
  import opened Wrappers
  import opened Tokens
  import opened Users
  import opened Errors

  /** The claims a verified payload must carry: `sub` and `user_id` must
      not be `None` (absent and JSON `null` read alike). Their values are
      not checked here. */
  predicate HasIdentityClaims(payload: Claims)
  {
    Get(payload, "sub") != JNull && Get(payload, "user_id") != JNull
  }

  /** `select(User).where(User.username == payload["sub"])`: only a string
      subject can equal a username. */
  function LookupSubject(users: Table, payload: Claims): (r: Option<User>)
    ensures r.Some? ==> r.value in users && Get(payload, "sub") == JStr(r.value.username)
    ensures r.None? <==> forall u | u in users :: Get(payload, "sub") != JStr(u.username)
  {
    match Get(payload, "sub")
    case JStr(name) => Find(users, ByUsername(name))
    case _ => None
  }

  /** The reference notion of whom a token speaks for: it verifies now,
      carries both identity claims, and its subject is `u`'s username. */
  predicate Vouches(settings: Settings, now: int, token: Token, u: User)
  {
    var payload := VerifyToken(settings, now, token);
    payload.Some? && HasIdentityClaims(payload.value) && Get(payload.value, "sub") == JStr(u.username)
  }

  /** `get_current_user_optional`: the profile of the active user the token
      speaks for, and `None` for everything else (no credentials, a token
      that does not verify, a missing claim, an unknown or inactive user).
      Building the profile is outside the `try`, so a row the profile schema
      refuses still raises, and the request ends in a 500. */
  function CurrentUserOptional(settings: Settings, now: int, credentials: Option<Token>, users: Table): (r: Result<Option<Profile>, Error>)
    ensures r.Err? ==> r.error == ServerError
    ensures r != Ok(None) ==> credentials.Some?
    ensures r != Ok(None) ==>
      exists u | u in users :: Vouches(settings, now, credentials.value, u) && u.isActive == 1
        && ProfileOf(u) == (if r.Ok? then Ok(r.value.value) else Err(ServerError))
    ensures credentials.Some? && (forall u | u in users :: !Vouches(settings, now, credentials.value, u)) ==> r == Ok(None)
  {
    match credentials
    case None => Ok(None)
    case Some(token) =>
      match VerifyToken(settings, now, token)
      case None => Ok(None)
      case Some(payload) =>
        if Get(payload, "sub") == JNull || Get(payload, "user_id") == JNull then Ok(None)
        else
          match LookupSubject(users, payload)
          case None => Ok(None)
          case Some(user) =>
            if user.isActive != 1 then Ok(None)
            else
              assert Vouches(settings, now, token, user);
              match ProfileOf(user)
              case Err(e) => Err(e)
              case Ok(profile) => Ok(Some(profile))
  }

  /** `get_current_user_required`: the same decision, but every failure
      raises. A bad token, a missing claim and an unknown user share one
      401; an inactive user gets the distinct "Usuario inactivo" 401; a row
      the profile schema refuses is a 500. */
  function CurrentUserRequired(settings: Settings, now: int, token: Token, users: Table): (r: Result<Profile, Error>)
    ensures r.Ok? ==> exists u | u in users :: Vouches(settings, now, token, u) && u.isActive == 1 && ProfileOf(u) == Ok(r.value)
    ensures r.Err? ==> r.error in {CouldNotValidate, InactiveUser, ServerError}
    ensures r == Err(InactiveUser) ==> exists u | u in users :: Vouches(settings, now, token, u) && u.isActive != 1
    ensures r == Err(ServerError) ==>
      exists u | u in users :: Vouches(settings, now, token, u) && u.isActive == 1 && !HasProfile(u)
    ensures (forall u | u in users :: !Vouches(settings, now, token, u)) ==> r == Err(CouldNotValidate)
  {
    match VerifyToken(settings, now, token)
    case None => Err(CouldNotValidate)
    case Some(payload) =>
      if Get(payload, "sub") == JNull || Get(payload, "user_id") == JNull then Err(CouldNotValidate)
      else
        match LookupSubject(users, payload)
        case None => Err(CouldNotValidate)
        case Some(user) =>
          assert Vouches(settings, now, token, user);
          if user.isActive != 1 then Err(InactiveUser)
          else ProfileOf(user)
  }

  /** In a table that keeps its unique constraints, the optional resolver
      answers with the profile of exactly the user the token speaks for,
      provided that user is active. */
  lemma OptionalResolvesVouchedUser(settings: Settings, now: int, token: Token, users: Table, u: User)
    requires WellFormed(users)
    requires u in users && Vouches(settings, now, token, u)
    ensures CurrentUserOptional(settings, now, Some(token), users)
         == if u.isActive != 1 then Ok(None)
            else if HasProfile(u) then Ok(Some(ProfileOf(u).value)) else Err(ServerError)
  {
    FindIsUnique(users, u, ByUsername(u.username));
  }

  /** The same for the required resolver: the user's profile when active,
      and "Usuario inactivo" when not. */
  lemma RequiredResolvesVouchedUser(settings: Settings, now: int, token: Token, users: Table, u: User)
    requires WellFormed(users)
    requires u in users && Vouches(settings, now, token, u)
    ensures CurrentUserRequired(settings, now, token, users) == if u.isActive == 1 then ProfileOf(u) else Err(InactiveUser)
  {
    FindIsUnique(users, u, ByUsername(u.username));
  }

  /** The two modes agree: the optional mode returns a profile exactly when
      the required mode succeeds, and it is the same profile; both raise the
      500 on the same tokens; every other failure is `None`. */
  lemma OptionalAgreesWithRequired(settings: Settings, now: int, token: Token, users: Table)
    ensures CurrentUserOptional(settings, now, Some(token), users)
         == match CurrentUserRequired(settings, now, token, users)
            case Ok(profile) => Ok(Some(profile))
            case Err(ServerError) => Err(ServerError)
            case Err(_) => Ok(None)
  {
  }

  /** The user is found by `sub` alone: a token whose `user_id` claim names
      any id at all, even another user's, resolves to the user its `sub`
      names. */
  lemma UserIdClaimNotMatched(settings: Settings, issuedAt: int, now: int, users: Table, u: User, anyId: int)
    requires WellFormed(users)
    requires u in users && u.isActive == 1
    requires issuedAt <= now <= issuedAt + DefaultLifetime
    ensures var claims := map["sub" := JStr(u.username), "user_id" := JInt(anyId)];
            CurrentUserRequired(settings, now, CreateAccessToken(settings, claims, None, issuedAt), users) == ProfileOf(u)
  {
    var claims := map["sub" := JStr(u.username), "user_id" := JInt(anyId)];
    var token := CreateAccessToken(settings, claims, None, issuedAt);
    assert VerifyToken(settings, now, token) == Some(token.payload);
    assert Vouches(settings, now, token, u);
    RequiredResolvesVouchedUser(settings, now, token, users, u);
  }

  /** `require_roles(allowed_roles)`: the role list is never consulted, and
      the `not current_user` test cannot fire because a resolved profile is
      always truthy, so every resolved user is let through. */
  function RequireRoles(allowedRoles: seq<string>, settings: Settings, now: int, token: Token, users: Table): (r: Result<Profile, Error>)
    ensures r == CurrentUserRequired(settings, now, token, users)
    ensures r != Err(AccessDenied)
  {
    CurrentUserRequired(settings, now, token, users)
  }

  /** `require_active_user()`: its own `is_active != 1` test is dead, since
      the required resolver already refused inactive users with a 401, so
      its 403 is never raised. */
  function RequireActiveUser(settings: Settings, now: int, token: Token, users: Table): (r: Result<Profile, Error>)
    ensures r == CurrentUserRequired(settings, now, token, users)
    ensures r != Err(InactiveForbidden)
  {
    match CurrentUserRequired(settings, now, token, users)
    case Err(e) => Err(e)
    case Ok(current) =>
      if current.isActive != 1 then Err(InactiveForbidden)
      else Ok(current)
  }
}

=== FILE: tables.dfy ===
/** Query shapes shared by the controllers. A table is a sequence of rows in
    insertion order; `WHERE` is `Filter`, `.offset(skip).limit(limit)` is
    `Page`, `scalar_one_or_none()` on a unique column is `FindFirst`, and the
    primary key the database hands out on insert is `NextId`. */
module Tables {
  import opened Wrappers

  /** The rows satisfying `keep`, in table order. */
  function Filter<T(==)>(rows: seq<T>, keep: T -> bool): (r: seq<T>)
    ensures |r| <= |rows|
    ensures forall x | x in r :: x in rows && keep(x)
    ensures forall x | x in rows && keep(x) :: x in r
  {
    if rows == [] then []
    else
      var rest := Filter(rows[1..], keep);
      if keep(rows[0]) then [rows[0]] + rest else rest
  }

  /** `r` is the window `.offset(skip).limit(limit)` selects from `rows`:
      the rows from position `skip` on, in order, as many as `limit` allows. */
  ghost predicate IsPage<T>(r: seq<T>, rows: seq<T>, skip: nat, limit: nat)
  {
    && |r| == (if skip >= |rows| then 0 else if |rows| - skip < limit then |rows| - skip else limit)
    && forall i | 0 <= i < |r| :: r[i] == rows[skip + i]
  }

  /** `.offset(skip).limit(limit)` for the bounds the routes validate
      (`ge=0`). */
  function Page<T>(rows: seq<T>, skip: nat, limit: nat): (r: seq<T>)
    ensures |r| <= limit
    ensures IsPage(r, rows, skip, limit)
  {
    if skip >= |rows| then []
    else if |rows| - skip <= limit then rows[skip..]
    else rows[skip..skip + limit]
  }

  /** Paging is consistent: a page of `a` rows followed by the page of `b`
      rows after it is the page of `a + b` rows. */
  lemma PagesTile<T>(rows: seq<T>, skip: nat, a: nat, b: nat)
    ensures Page(rows, skip, a) + Page(rows, skip + a, b) == Page(rows, skip, a + b)
  {
    var left, right, whole := Page(rows, skip, a), Page(rows, skip + a, b), Page(rows, skip, a + b);
    assert |left + right| == |whole|;
    forall i | 0 <= i < |whole| ensures (left + right)[i] == whole[i] {
      if i >= |left| {
        assert right[i - |left|] == rows[skip + a + (i - |left|)];
      }
    }
  }

  /** `.offset(skip).limit(limit)` with integers no route validated, as
      SQLite evaluates them: a negative OFFSET counts as 0, and a negative
      LIMIT sets no upper bound. */
  function OffsetLimit<T>(rows: seq<T>, skip: int, limit: int): (r: seq<T>)
    ensures skip >= 0 && limit >= 0 ==> IsPage(r, rows, skip, limit)
    ensures skip < 0 && limit >= 0 ==> IsPage(r, rows, 0, limit)
    ensures limit < 0 ==> r == rows[if skip < 0 then 0 else if skip < |rows| then skip else |rows|..]
  {
    Page(rows, if skip < 0 then 0 else skip, if limit < 0 then |rows| else limit)
  }

  /** `UPDATE ... WHERE id = :id` with the values of `row`: the row holding
      `row`'s key becomes `row`, and every other row stays as it was. */
  function ReplaceByKey<T>(rows: seq<T>, row: T, key: T -> int): (r: seq<T>)
    ensures |r| == |rows|
    ensures forall i | 0 <= i < |rows| :: r[i] == if key(rows[i]) == key(row) then row else rows[i]
  {
    seq(|rows|, i requires 0 <= i < |rows| => if key(rows[i]) == key(row) then row else rows[i])
  }

  /** The first row satisfying `p`. */
  function FindFirst<T>(rows: seq<T>, p: T -> bool): (r: Option<T>)
    ensures r.Some? ==> r.value in rows && p(r.value)
    ensures r.None? <==> forall i | 0 <= i < |rows| :: !p(rows[i])
  {
    if rows == [] then None
    else if p(rows[0]) then Some(rows[0])
    else FindFirst(rows[1..], p)
  }

  /** The key the database assigns to a new row: one more than the largest
      key in use, and 1 in an empty table. */
  function NextId<T>(rows: seq<T>, id: T -> int): (n: int)
    ensures n >= 1
    ensures forall i | 0 <= i < |rows| :: id(rows[i]) < n
  {
    if rows == [] then 1
    else
      var rest := NextId(rows[1..], id);
      if id(rows[0]) < rest then rest else id(rows[0]) + 1
  }
}

=== FILE: tokens.dfy ===
/** The token codec of `app/utils/auth.py`: `create_access_token` and
    `verify_token`, a JSON Web Token (RFC 7519) carrying an `exp` claim
    (section 4.1.4 of RFC 7519) and signed with HMAC SHA-256 (section 3.2 of
    RFC 7518).

    Signing is modelled as an ideal message authentication code: the
    signature is the symbolic term `Mac(algorithm, key, payload)`, which only
    the holder of `key` can produce. The base64url/JSON wire format is not
    modelled: a token is either a structured signed payload or text that
    does not parse. Time is an integer count of seconds, `datetime.utcnow()`
    becomes the parameter `now`. */
module Tokens {
  import opened Wrappers

  /** A JSON value as it appears in a token payload. */
  datatype Json = JStr(s: string) | JInt(i: int) | JBool(b: bool) | JNull

  type Claims = map<string, Json>

  /** Python truthiness of a decoded value: `""`, `0`, `False` and `None`
      are falsy. */
  predicate Truthy(v: Json)
  {
    match v
    case JStr(s) => s != ""
    case JInt(i) => i != 0
    case JBool(b) => b
    case JNull => false
  }

  /** `payload.get(key)`: `None` when the claim is absent. */
  function Get(payload: Claims, key: string): Json
  {
    if key in payload then payload[key] else JNull
  }

  /** `settings.SECRET_KEY` and `settings.ALGORITHM` (app/config.py). */
  datatype Settings = Settings(secretKey: string, algorithm: string)

  const DefaultSettings := Settings("clave_secreta_para_pruebas_cambiar_en_produccion", "HS256")

  /** An ideal keyed signature over a payload. */
  datatype Mac = Mac(algorithm: string, key: string, payload: Claims)

  /** A bearer token: a signed payload (header algorithm, payload, signature)
      or a string that does not parse as one. */
  datatype Token = Jws(algorithm: string, payload: Claims, signature: Mac) | Garbled(text: string)

  /** `jwt.encode(payload, settings.SECRET_KEY, algorithm=settings.ALGORITHM)`. */
  function Sign(settings: Settings, payload: Claims): Token
  {
    Jws(settings.algorithm, payload, Mac(settings.algorithm, settings.secretKey, payload))
  }

  /** The lifetime used when no (or a zero) `expires_delta` is given: 15 minutes. */
  const DefaultLifetime: int := 15 * 60

  /** The lifetime `create_access_token` applies: a `timedelta` is falsy when
      it is zero, so `None` and `timedelta(0)` both fall back to the default. */
  function Lifetime(expiresDelta: Option<int>): (seconds: int)
    ensures expiresDelta == None || expiresDelta == Some(0) ==> seconds == DefaultLifetime
    ensures expiresDelta.Some? && expiresDelta.value != 0 ==> seconds == expiresDelta.value
  {
    match expiresDelta
    case Some(delta) => if delta != 0 then delta else DefaultLifetime
    case None => DefaultLifetime
  }

  /** `create_access_token(data, expires_delta)` at time `now`. */
  function CreateAccessToken(settings: Settings, data: Claims, expiresDelta: Option<int>, now: int): (token: Token)
    ensures token.Jws? && token.algorithm == settings.algorithm
    ensures token.payload.Keys == data.Keys + {"exp"}
    ensures forall k | k in data && k != "exp" :: token.payload[k] == data[k]
    ensures token.payload["exp"] == JInt(now + Lifetime(expiresDelta))
    ensures token.signature.key == settings.secretKey
  {
    var toEncode := data["exp" := JInt(now + Lifetime(expiresDelta))];
    Sign(settings, toEncode)
  }

  /** Python's `int(value)` on a decoded claim: integers, and booleans as 1
      and 0. */
  function AsInt(v: Json): (n: Option<int>)
    ensures n.Some? <==> v.JInt? || v.JBool?
    ensures v.JInt? ==> n == Some(v.i)
  {
    match v
    case JInt(i) => Some(i)
    case JBool(b) => Some(if b then 1 else 0)
    case _ => None
  }

  /** python-jose's expiry rule: a payload without `exp` never expires; an
      `exp` has expired once it is strictly below the current time. */
  predicate NotExpired(payload: Claims, now: int)
  {
    "exp" !in payload || (AsInt(payload["exp"]).Some? && now <= AsInt(payload["exp"]).value)
  }

  /** The other registered claims `jwt.decode` checks with its default
      options and neither an audience, an issuer nor an access token given:
      `iat` must be an integer, `nbf` an integer not after `now`, `sub` and
      `jti` strings; any `aud` or `at_hash` is refused. */
  predicate OtherClaimsAccepted(payload: Claims, now: int)
  {
    && ("iat" in payload ==> AsInt(payload["iat"]).Some?)
    && ("nbf" in payload ==> AsInt(payload["nbf"]).Some? && AsInt(payload["nbf"]).value <= now)
    && "aud" !in payload
    && ("sub" in payload ==> payload["sub"].JStr?)
    && ("jti" in payload ==> payload["jti"].JStr?)
    && "at_hash" !in payload
  }

  /** Every claim check `jwt.decode` makes. */
  predicate ClaimsAccepted(payload: Claims, now: int)
  {
    NotExpired(payload, now) && OtherClaimsAccepted(payload, now)
  }

  /** `verify_token`: the payload of a token signed with the configured key
      and algorithm whose claims pass `jwt.decode`'s checks, and `None` for
      everything else (a garbled token, another algorithm, a bad signature,
      an expired token, a malformed registered claim). */
  function VerifyToken(settings: Settings, now: int, token: Token): (r: Option<Claims>)
    ensures r.Some? ==> token == Sign(settings, r.value)
    ensures r.Some? ==> ClaimsAccepted(r.value, now)
    ensures token.Jws? && token == Sign(settings, token.payload) && ClaimsAccepted(token.payload, now) ==> r == Some(token.payload)
  {
    match token
    case Garbled(_) => None
    case Jws(algorithm, payload, signature) =>
      if algorithm == settings.algorithm
         && signature == Mac(settings.algorithm, settings.secretKey, payload)
         && ClaimsAccepted(payload, now)
      then Some(payload)
      else None
  }

  /** A signed token whose `sub` is not a string is refused: the subject
      `7` of `{"sub": 7, "user_id": 1}` fails the claim check. */
  lemma NonStringSubjectRejected(settings: Settings, now: int)
    ensures VerifyToken(settings, now, Sign(settings, map["sub" := JInt(7), "user_id" := JInt(1)])) == None
  {
  }

  /** Adding `exp` to a payload leaves the other claim checks as they were. */
  lemma OtherClaimsIgnoreExp(payload: Claims, exp: Json, now: int)
    ensures OtherClaimsAccepted(payload["exp" := exp], now) == OtherClaimsAccepted(payload, now)
  {
    var updated := payload["exp" := exp];
    assert forall k | k != "exp" :: (k in updated <==> k in payload) && (k in payload ==> updated[k] == payload[k]);
  }

  /** Round trip: a token issued at `issuedAt` over claims that pass the
      other checks is accepted exactly until its lifetime has elapsed
      (inclusive of the last second), and then yields every claim it was
      issued with plus `exp`. Claims that fail them are never accepted. */
  lemma IssueThenVerify(settings: Settings, data: Claims, expiresDelta: Option<int>, issuedAt: int, now: int)
    ensures var token := CreateAccessToken(settings, data, expiresDelta, issuedAt);
            VerifyToken(settings, now, token).Some?
            <==> now <= issuedAt + Lifetime(expiresDelta) && OtherClaimsAccepted(data, now)
    ensures var token := CreateAccessToken(settings, data, expiresDelta, issuedAt);
            VerifyToken(settings, now, token).Some? ==> VerifyToken(settings, now, token).value == token.payload
  {
    OtherClaimsIgnoreExp(data, JInt(issuedAt + Lifetime(expiresDelta)), now);
  }

  /** A token signed under another key is refused, whatever its claims. */
  lemma ForeignKeyRejected(settings: Settings, other: Settings, payload: Claims, now: int)
    requires other.secretKey != settings.secretKey
    ensures VerifyToken(settings, now, Sign(other, payload)) == None
  {
  }

  /** Changing the payload of a signed token without re-signing it makes
      verification fail. */
  lemma TamperedPayloadRejected(settings: Settings, payload: Claims, forged: Claims, now: int)
    requires forged != payload
    ensures var t := Sign(settings, payload);
            VerifyToken(settings, now, Jws(t.algorithm, forged, t.signature)) == None
  {
  }
}

=== FILE: users.dfy ===
/** The `users` table as the authentication code and the user and client
    controllers see it: the row, the lookups by a unique column, the unique
    constraints the database enforces on insert and update, and the public
    profile view (`UserProfile` / `UserResponse`). */
module Users {
  import opened Wrappers
  import opened Credentials
  import opened Errors
  import Tables

  /** A row of `users`. `is_active` is an integer column: 1 is active, and
      the code tests `!= 1` in some places and `== 0` in others. */
  datatype User = User(
    id: int,
    username: string,
    email: string,
    fullName: Option<string>,
    phone: Option<string>,
    hashedPassword: PasswordHash,
    isActive: int)

  type Table = seq<User>

  /** The unique column a lookup selects on. */
  datatype Key = ById(id: int) | ByUsername(username: string) | ByEmail(email: string) | ByPhone(phone: string)

  predicate Matches(u: User, key: Key)
  {
    match key
    case ById(id) => u.id == id
    case ByUsername(name) => u.username == name
    case ByEmail(address) => u.email == address
    case ByPhone(number) => u.phone == Some(number)
  }

  /** `select(User).where(column == value)` followed by `scalar_one_or_none()`. */
  function Find(users: Table, key: Key): (r: Option<User>)
    ensures r.Some? ==> r.value in users && Matches(r.value, key)
    ensures r.None? <==> forall u | u in users :: !Matches(u, key)
  {
    Tables.FindFirst(users, u => Matches(u, key))
  }

  /** Two rows the unique constraints of `users` (primary key, username,
      email, non-null phone) do not allow side by side. */
  predicate Clash(a: User, b: User)
  {
    || a.id == b.id
    || a.username == b.username
    || a.email == b.email
    || (a.phone.Some? && a.phone == b.phone)
  }

  /** The table satisfies its unique constraints. */
  predicate WellFormed(users: Table)
  {
    forall i, j | 0 <= i < j < |users| :: !Clash(users[i], users[j])
  }

  /** In a well-formed table a lookup by a unique column finds the one row
      holding that value. */
  lemma FindIsUnique(users: Table, u: User, key: Key)
    requires WellFormed(users)
    requires u in users && Matches(u, key)
    ensures Find(users, key) == Some(u)
  {
    var found := Find(users, key);
    if found != Some(u) {
      var v := found.value;
      var i :| 0 <= i < |users| && users[i] == u;
    }
  }

  /** The primary key the database assigns to the next inserted user. */
  function NewId(users: Table): (id: int)
    ensures id >= 1
    ensures Find(users, ById(id)) == None
  {
    Tables.NextId(users, (u: User) => u.id)
  }

  /** Adding a row and committing: an `IntegrityError` (`None`) when the row
      clashes with one already stored, and nothing is written. */
  function Insert(users: Table, row: User): (r: Option<Table>)
    ensures r.Some? ==> r.value == users + [row]
    ensures r.None? <==> exists u | u in users :: Clash(u, row)
    ensures WellFormed(users) && r.Some? ==> WellFormed(r.value)
  {
    if exists i | 0 <= i < |users| :: Clash(users[i], row) then None
    else Some(users + [row])
  }

  /** The table with the row whose id is `row.id` replaced by `row`. */
  function Replace(users: Table, row: User): (r: Table)
    ensures |r| == |users|
    ensures forall i | 0 <= i < |users| :: r[i] == if users[i].id == row.id then row else users[i]
  {
    Tables.ReplaceByKey(users, row, (x: User) => x.id)
  }

  /** Writing new values into the row with id `row.id` and committing: an
      `IntegrityError` (`None`) when they clash with another row. */
  function Update(users: Table, row: User): (r: Option<Table>)
    ensures r.Some? ==> r.value == Replace(users, row)
    ensures r.None? <==> exists u | u in users :: u.id != row.id && Clash(u, row)
    ensures WellFormed(users) && r.Some? ==> WellFormed(r.value)
  {
    if exists i | 0 <= i < |users| :: users[i].id != row.id && Clash(users[i], row) then None
    else
      var r := Replace(users, row);
      assert WellFormed(users) ==> WellFormed(r) by {
        if WellFormed(users) {
          forall i, j | 0 <= i < j < |r| ensures !Clash(r[i], r[j]) {
            assert !Clash(users[i], users[j]);
            if users[i].id == row.id {
              assert users[j].id != row.id;
              assert !Clash(users[j], row);
            }
          }
        }
      }
      Some(r)
  }

  /** Rewriting a stored row without touching its unique columns (a new
      password hash, a new active flag) always commits. */
  lemma UpdateKeepingKeys(users: Table, stored: User, row: User)
    requires WellFormed(users)
    requires stored in users
    requires row.id == stored.id && row.username == stored.username && row.email == stored.email && row.phone == stored.phone
    ensures Update(users, row).Some?
  {
  }

  /** Two different rows of a table that keeps its unique constraints do
      not clash, in either order. */
  lemma DistinctRowsDoNotClash(users: Table, a: User, b: User)
    requires WellFormed(users)
    requires a in users && b in users && a != b
    ensures !Clash(a, b)
  {
    var i :| 0 <= i < |users| && users[i] == a;
    var j :| 0 <= j < |users| && users[j] == b;
    if i < j {
      assert !Clash(users[i], users[j]);
    } else {
      assert !Clash(users[j], users[i]);
    }
  }

  /** Writing a row back under its own keys (a new hash, a new active flag)
      keeps the table well formed and leaves the new row in place of the
      old one. */
  lemma ReplaceKeepingKeys(users: Table, stored: User, row: User)
    requires WellFormed(users)
    requires stored in users
    requires row.id == stored.id && row.username == stored.username && row.email == stored.email && row.phone == stored.phone
    ensures WellFormed(Replace(users, row))
    ensures row in Replace(users, row)
  {
    UpdateKeepingKeys(users, stored, row);
    var i :| 0 <= i < |users| && users[i] == stored;
    assert Replace(users, row)[i] == row;
  }

  /** Writing a stored row back unchanged leaves the table as it was. */
  lemma ReplaceWithStoredRow(users: Table, u: User)
    requires WellFormed(users)
    requires u in users
    ensures Replace(users, u) == users
  {
    var stored := Replace(users, u);
    forall i | 0 <= i < |users| ensures stored[i] == users[i] {
      if users[i].id == u.id && users[i] != u {
        DistinctRowsDoNotClash(users, users[i], u);
      }
    }
  }

  /** After a user's hash is replaced, authenticating as that user checks the
      password against the new hash. */
  lemma AuthenticateAfterNewHash(users: Table, u: User, hash: PasswordHash, attempt: string)
    requires WellFormed(users)
    requires u in users
    ensures Authenticate(Replace(users, u.(hashedPassword := hash)), u.username, attempt).Some?
        <==> VerifyPassword(attempt, hash) && u.isActive == 1
  {
    var row := u.(hashedPassword := hash);
    var table := Replace(users, row);
    ReplaceKeepingKeys(users, u, row);
    FindIsUnique(table, row, ByUsername(u.username));
  }

  /** The public view of a user (`UserProfile`, `UserResponse`): everything
      but the password hash. Both schemas declare `full_name` and `phone` as
      required strings. */
  datatype Profile = Profile(
    id: int,
    username: string,
    email: string,
    fullName: string,
    phone: string,
    isActive: int)

  /** A row the profile schemas accept: neither `full_name` nor `phone` is
      NULL. Clients may be created without them. */
  predicate HasProfile(u: User)
  {
    u.fullName.Some? && u.phone.Some?
  }

  /** `UserProfile.from_orm(user)` / `UserResponse.from_orm(user)`: a row
      with a NULL `full_name` or `phone` fails validation, and the
      `ValidationError` is caught by no handler, so the request ends in a
      500. */
  function ProfileOf(u: User): (r: Result<Profile, Error>)
    ensures r.Ok? <==> HasProfile(u)
    ensures r.Err? ==> r.error == ServerError
    ensures r.Ok? ==>
      && r.value.id == u.id && r.value.username == u.username && r.value.email == u.email
      && Some(r.value.fullName) == u.fullName && Some(r.value.phone) == u.phone
      && r.value.isActive == u.isActive
  {
    if u.fullName.None? || u.phone.None? then Err(ServerError)
    else Ok(Profile(u.id, u.username, u.email, u.fullName.value, u.phone.value, u.isActive))
  }

  /** Two rows with the same public fields give the same profile, and a
      profile determines every public field of its row. */
  lemma ProfileOfInjective(u: User, v: User)
    requires ProfileOf(u).Ok? && ProfileOf(u) == ProfileOf(v)
    ensures u.(hashedPassword := v.hashedPassword) == v
  {
  }

  /** `_authenticate_user` / `authenticate_user`: the user named `username`,
      provided the password verifies and the account is active; `None` for
      an unknown user, a wrong password and an inactive account alike. */
  function Authenticate(users: Table, username: string, password: string): (r: Option<User>)
    ensures r.Some? ==> r.value in users && r.value.username == username
    ensures r.Some? ==> VerifyPassword(password, r.value.hashedPassword) && r.value.isActive == 1
  {
    match Find(users, ByUsername(username))
    case None => None
    case Some(u) =>
      if !VerifyPassword(password, u.hashedPassword) then None
      else if u.isActive != 1 then None
      else Some(u)
  }

  /** In a well-formed table, authentication accepts exactly the stored
      user with that name, a verifying password and `is_active == 1`. */
  lemma AuthenticateExactly(users: Table, username: string, password: string, u: User)
    requires WellFormed(users)
    requires u in users && u.username == username
    ensures Authenticate(users, username, password) == Some(u)
        <==> VerifyPassword(password, u.hashedPassword) && u.isActive == 1
  {
    FindIsUnique(users, u, ByUsername(username));
  }
}

=== FILE: userservice.dfy ===
/** `UserController` of `app/controllers/userController.py`: user creation,
    lookup, listing, partial update, soft delete and login over the `users`
    table. */
module UserService {
  import opened Wrappers
  import opened Credentials
  import opened Tokens
  import opened Users
  import opened Errors
  import Tables
  import AuthService
  import Session

  /** The fields of `UserCreate`. */
  datatype UserCreate = UserCreate(username: string, email: string, fullName: string, phone: string, password: string)

  /** `create_user`: the same checks, in the same order, as registration,
      and the same row; it answers with the stored profile instead of a
      token. */
  function CreateUser(salt: Salt, users: Table, data: UserCreate): (r: Result<(Table, Profile), Error>)
    ensures r == Err(UsernameTaken) <==> exists u | u in users :: u.username == data.username
    ensures r == Err(EmailTaken) <==>
      (forall u | u in users :: u.username != data.username) && exists u | u in users :: u.email == data.email
    ensures r == Err(IntegrityFailure) <==>
      (forall u | u in users :: u.username != data.username && u.email != data.email)
      && exists u | u in users :: u.phone == Some(data.phone)
    ensures r.Err? ==> r.error in {UsernameTaken, EmailTaken, IntegrityFailure}
    ensures r.Ok? ==> |r.value.0| == |users| + 1 && r.value.0[..|users|] == users
    ensures r.Ok? ==>
      var (stored, profile) := r.value;
      var u := stored[|users|];
      && u.username == data.username && u.email == data.email
      && u.fullName == Some(data.fullName) && u.phone == Some(data.phone)
      && u.isActive == 1 && VerifyPassword(data.password, u.hashedPassword)
      && (forall v | v in users :: v.id != u.id)
      && ProfileOf(u) == Ok(profile)
  {
    if Find(users, ByUsername(data.username)).Some? then Err(UsernameTaken)
    else if Find(users, ByEmail(data.email)).Some? then Err(EmailTaken)
    else
      var row := User(NewId(users), data.username, data.email, Some(data.fullName), Some(data.phone),
                      HashPassword(data.password, salt), 1);
      match Insert(users, row)
      case None => Err(IntegrityFailure)
      case Some(stored) =>
        assert stored[|users|] == row && stored[..|users|] == users;
        Ok((stored, ProfileOf(row).value))
  }

  /** Creating a user and registering one write the same table and fail
      with the same error. */
  lemma CreateAgreesWithRegister(settings: Settings, now: int, salt: Salt, users: Table, data: UserCreate)
    ensures var request := AuthService.RegisterRequest(data.username, data.email, data.fullName, data.phone, data.password);
            var created := CreateUser(salt, users, data);
            var registered := AuthService.Register(settings, now, salt, users, request);
            && created.Ok? == registered.Ok?
            && (created.Ok? ==> created.value.0 == registered.value.0 && created.value.1 == registered.value.1.user)
            && (created.Err? ==> created.error == registered.error)
  {
  }

  /** `get_user_by_id`: `None` for an unknown id, the profile otherwise; a
      row the response schema refuses raises, which is a 500. */
  function GetUserById(users: Table, id: int): (r: Result<Option<Profile>, Error>)
    ensures r == Ok(None) <==> forall u | u in users :: u.id != id
    ensures r.Err? ==> r.error == ServerError && !HasProfile(Find(users, ById(id)).value)
    ensures r.Ok? && r.value.Some? ==> exists u | u in users :: u.id == id && ProfileOf(u) == Ok(r.value.value)
  {
    match Find(users, ById(id))
    case None => Ok(None)
    case Some(u) =>
      match ProfileOf(u)
      case Err(e) => Err(e)
      case Ok(profile) => Ok(Some(profile))
  }

  /** `get_all_users(skip, limit)`: one page of profiles in table order. The
      route leaves both bounds unchecked, so SQLite's reading of negative
      ones applies; one row in the page that the response schema refuses
      makes the whole request a 500. */
  function GetAllUsers(users: Table, skip: int, limit: int): (r: Result<seq<Profile>, Error>)
    ensures var page := Tables.OffsetLimit(users, skip, limit);
            r.Err? <==> exists i | 0 <= i < |page| :: !HasProfile(page[i])
    ensures r.Err? ==> r.error == ServerError
    ensures r.Ok? ==>
      var page := Tables.OffsetLimit(users, skip, limit);
      |r.value| == |page| && forall i | 0 <= i < |page| :: ProfileOf(page[i]) == Ok(r.value[i])
  {
    var page := Tables.OffsetLimit(users, skip, limit);
    if exists i | 0 <= i < |page| :: !HasProfile(page[i]) then Err(ServerError)
    else Ok(seq(|page|, i requires 0 <= i < |page| => ProfileOf(page[i]).value))
  }

  /** The fields of `UserUpdate` a request sets (`exclude_unset`). */
  datatype UserPatch = UserPatch(
    username: Option<string>,
    email: Option<string>,
    fullName: Option<string>,
    phone: Option<string>,
    password: Option<string>,
    isActive: Option<int>)

  const NoChanges := UserPatch(None, None, None, None, None, None)

  /** The row `update_user` writes: supplied fields replace the stored ones,
      a supplied password is stored as its hash, and the id stays. */
  function Patched(u: User, patch: UserPatch, salt: Salt): (row: User)
    ensures row.id == u.id
    ensures patch.password.Some? ==> VerifyPassword(patch.password.value, row.hashedPassword)
    ensures patch.password.None? ==> row.hashedPassword == u.hashedPassword
  {
    u.(username := Or(patch.username, u.username),
       email := Or(patch.email, u.email),
       fullName := if patch.fullName.Some? then patch.fullName else u.fullName,
       phone := if patch.phone.Some? then patch.phone else u.phone,
       hashedPassword := if patch.password.Some? then HashPassword(patch.password.value, salt) else u.hashedPassword,
       isActive := Or(patch.isActive, u.isActive))
  }

  /** `update_user`: 404 for an unknown id; the lookup builds the stored
      row's response first, so a row the schema refuses is a 500 before
      anything is written. Then the supplied fields are written. A write
      that breaks a unique constraint is not caught and is a 500 too. */
  function UpdateUser(salt: Salt, users: Table, id: int, patch: UserPatch): (r: Result<(Table, Profile), Error>)
    ensures r == Err(UserNotFound) <==> forall u | u in users :: u.id != id
    ensures r == Err(ServerError) <==>
      Find(users, ById(id)).Some? &&
      var u := Find(users, ById(id)).value;
      !HasProfile(u) || exists v | v in users :: v.id != id && Clash(v, Patched(u, patch, salt))
    ensures r.Err? ==> r.error in {UserNotFound, ServerError}
    ensures r.Ok? ==> |r.value.0| == |users|
    ensures r.Ok? ==>
      var u := Find(users, ById(id)).value;
      var (stored, profile) := r.value;
      && profile.id == id
      && profile.username == Or(patch.username, u.username)
      && profile.email == Or(patch.email, u.email)
      && Some(profile.fullName) == (if patch.fullName.Some? then patch.fullName else u.fullName)
      && Some(profile.phone) == (if patch.phone.Some? then patch.phone else u.phone)
      && profile.isActive == Or(patch.isActive, u.isActive)
      && (forall i | 0 <= i < |users| && users[i].id != id :: stored[i] == users[i])
      && (forall i | 0 <= i < |users| && users[i].id == id :: stored[i] == Patched(u, patch, salt))
    ensures r.Ok? && WellFormed(users) ==> WellFormed(r.value.0)
  {
    match Find(users, ById(id))
    case None => Err(UserNotFound)
    case Some(u) =>
      if !HasProfile(u) then Err(ServerError)
      else
        var row := Patched(u, patch, salt);
        match Update(users, row)
        case None => Err(ServerError)
        case Some(stored) => Ok((stored, ProfileOf(row).value))
  }

  /** An update that sets nothing writes nothing: the stored row is
      returned as it was. */
  lemma UpdateNothingChangesNothing(salt: Salt, users: Table, u: User)
    requires WellFormed(users)
    requires u in users
    ensures UpdateUser(salt, users, u.id, NoChanges) == if HasProfile(u) then Ok((users, ProfileOf(u).value)) else Err(ServerError)
  {
    FindIsUnique(users, u, ById(u.id));
    assert Patched(u, NoChanges, salt) == u;
    UpdateKeepingKeys(users, u, u);
    ReplaceWithStoredRow(users, u);
  }

  /** A new password set through `update_user` is the one login accepts. */
  lemma UpdatePasswordThenLogin(salt: Salt, users: Table, u: User, password: string, attempt: string)
    requires WellFormed(users)
    requires u in users
    ensures var patch := NoChanges.(password := Some(password));
            var updated := UpdateUser(salt, users, u.id, patch);
            var kept := attempt[..FitCount(attempt, MaxKeyBytes)] == password[..FitCount(password, MaxKeyBytes)];
            && (updated.Ok? <==> HasProfile(u))
            && (updated.Ok? ==> (Authenticate(updated.value.0, u.username, attempt).Some? <==> u.isActive == 1 && kept))
  {
    FindIsUnique(users, u, ById(u.id));
    AuthenticateAfterNewHash(users, u, HashPassword(password, salt), attempt);
    VerifyIffSameKeptCharacters(attempt, password, salt);
    UpdateKeepingKeys(users, u, u.(hashedPassword := HashPassword(password, salt)));
  }

  /** `delete_user`: a soft delete. The row stays and its `is_active`
      becomes 0. The existence check builds the row's response, so a row the
      schema refuses is a 500 and is not deleted. */
  function DeleteUser(users: Table, id: int): (r: Result<Table, Error>)
    ensures r == Err(UserNotFound) <==> forall u | u in users :: u.id != id
    ensures r == Err(ServerError) <==> Find(users, ById(id)).Some? && !HasProfile(Find(users, ById(id)).value)
    ensures r.Err? ==> r.error in {UserNotFound, ServerError}
    ensures r.Ok? ==> |r.value| == |users|
    ensures r.Ok? ==> forall i | 0 <= i < |users| ::
      r.value[i] == if users[i].id == id then Find(users, ById(id)).value.(isActive := 0) else users[i]
  {
    match Find(users, ById(id))
    case None => Err(UserNotFound)
    case Some(u) =>
      if !HasProfile(u) then Err(ServerError)
      else Ok(Replace(users, u.(isActive := 0)))
  }

  /** After a soft delete the user can no longer log in, and a token issued
      to them earlier is refused as belonging to an inactive user. */
  lemma DeletedUserLockedOut(settings: Settings, now: int, users: Table, u: User, password: string, token: Token)
    requires WellFormed(users)
    requires u in users
    requires Session.Vouches(settings, now, token, u)
    ensures var deleted := DeleteUser(users, u.id);
            && (deleted.Ok? <==> HasProfile(u))
            && (deleted.Ok? ==> Authenticate(deleted.value, u.username, password).None?)
            && (deleted.Ok? ==> Session.CurrentUserRequired(settings, now, token, deleted.value) == Err(InactiveUser))
  {
    FindIsUnique(users, u, ById(u.id));
    var row := u.(isActive := 0);
    ReplaceKeepingKeys(users, u, row);
    var deleted := Replace(users, row);
    AuthenticateExactly(deleted, u.username, password, row);
    assert Session.Vouches(settings, now, token, row);
    Session.RequiredResolvesVouchedUser(settings, now, token, deleted, row);
  }

  /** The body of a successful `login_user`: a token and the user. */
  datatype LoginReply = LoginReply(accessToken: Token, user: Profile)

  /** `login_user`: a 401 when authentication fails, a 500 when
      `authenticate_user` cannot build the user's response, otherwise a
      30-minute token for the user's username and id. */
  function LoginUser(settings: Settings, now: int, users: Table, username: string, password: string): (r: Result<LoginReply, Error>)
    ensures r.Err? ==> r.error in {BadCredentials, ServerError}
    ensures r == Err(BadCredentials) <==> Authenticate(users, username, password).None?
    ensures r == Err(ServerError) <==>
      Authenticate(users, username, password).Some? && !HasProfile(Authenticate(users, username, password).value)
    ensures r.Ok? ==>
      var u := Authenticate(users, username, password).value;
      && ProfileOf(u) == Ok(r.value.user)
      && r.value.accessToken == CreateAccessToken(settings, AuthService.IdentityClaims(u.username, u.id), Some(AuthService.AccessLifetime), now)
  {
    match Authenticate(users, username, password)
    case None => Err(BadCredentials)
    case Some(u) =>
      match ProfileOf(u)
      case Err(e) => Err(e)
      case Ok(profile) =>
        var token := CreateAccessToken(settings, AuthService.IdentityClaims(u.username, u.id), Some(AuthService.AccessLifetime), now);
        Ok(LoginReply(token, profile))
  }
}

=== FILE: utf8.dfy ===
/** UTF-8 as RFC 3629 defines it: the encoder of section 3 and the
    well-formedness rule (the `UTF8-octets` grammar) of section 4, which is what
    Python's `str.encode('utf-8')` and `bytes.decode('utf-8')` implement.
    Python strings are modelled as Dafny strings, whose characters are Unicode
    scalar values (no surrogates), so encoding never fails. */
module Utf8 {

  type byte = b: int | 0 <= b < 0x100

  /** The one-to-four byte encoding of a single scalar value (RFC 3629, section 3). */
  function EncodeChar(c: char): (bs: seq<byte>)
    ensures 1 <= |bs| <= 4
  {
    var cp := c as int;
    if cp < 0x80 then [cp]
    else if cp < 0x800 then [0xC0 + cp / 0x40, 0x80 + cp % 0x40]
    else if cp < 0x1_0000 then [0xE0 + cp / 0x1000, 0x80 + (cp / 0x40) % 0x40, 0x80 + cp % 0x40]
    else [0xF0 + cp / 0x4_0000, 0x80 + (cp / 0x1000) % 0x40, 0x80 + (cp / 0x40) % 0x40, 0x80 + cp % 0x40]
  }

  /** `s.encode('utf-8')`. */
  function Encode(s: string): seq<byte>
  {
    if s == [] then [] else EncodeChar(s[0]) + Encode(s[1..])
  }

  predicate IsTail(b: byte)
  {
    0x80 <= b <= 0xBF
  }

  /** The length of the sequence a lead byte starts, or 0 when the byte
      cannot start a character (a continuation byte, 0xC0, 0xC1, 0xF5-0xFF). */
  function LeadLength(b: byte): nat
  {
    if b <= 0x7F then 1
    else if 0xC2 <= b <= 0xDF then 2
    else if 0xE0 <= b <= 0xEF then 3
    else if 0xF0 <= b <= 0xF4 then 4
    else 0
  }

  /** `bs` is exactly one `UTF8-char` of the RFC 3629 grammar: no overlong
      forms, no surrogates, nothing above U+10FFFF. */
  predicate WellFormedChar(bs: seq<byte>)
  {
    if |bs| == 1 then
      bs[0] <= 0x7F
    else if |bs| == 2 then
      0xC2 <= bs[0] <= 0xDF && IsTail(bs[1])
    else if |bs| == 3 then
      && (|| (bs[0] == 0xE0 && 0xA0 <= bs[1] <= 0xBF)
          || (0xE1 <= bs[0] <= 0xEC && IsTail(bs[1]))
          || (bs[0] == 0xED && 0x80 <= bs[1] <= 0x9F)
          || (0xEE <= bs[0] <= 0xEF && IsTail(bs[1])))
      && IsTail(bs[2])
    else if |bs| == 4 then
      && (|| (bs[0] == 0xF0 && 0x90 <= bs[1] <= 0xBF)
          || (0xF1 <= bs[0] <= 0xF3 && IsTail(bs[1]))
          || (bs[0] == 0xF4 && 0x80 <= bs[1] <= 0x8F))
      && IsTail(bs[2]) && IsTail(bs[3])
    else
      false
  }

  /** `bs.decode('utf-8')` succeeds: `bs` is a concatenation of well-formed
      characters. A strict prefix of a multi-byte character is not valid. */
  predicate Valid(bs: seq<byte>)
    decreases |bs|
  {
    || |bs| == 0
    || (var n := LeadLength(bs[0]);
        1 <= n <= |bs| && WellFormedChar(bs[..n]) && Valid(bs[n..]))
  }

  /** The encoder produces one well-formed character whose lead byte
      announces its length. */
  lemma EncodeCharWellFormed(c: char)
    ensures LeadLength(EncodeChar(c)[0]) == |EncodeChar(c)|
    ensures WellFormedChar(EncodeChar(c))
  {
    var cp := c as int;
    var bs := EncodeChar(c);
    if cp < 0x80 {
    } else if cp < 0x800 {
      assert 2 <= cp / 0x40 < 0x20;
    } else if cp < 0x1_0000 {
      assert cp / 0x1000 < 0x10;
      if cp < 0x1000 {
        assert 0x20 <= cp / 0x40 < 0x40;
        assert bs[1] >= 0xA0;
      }
      if 0xD000 <= cp < 0xE000 {
        assert cp < 0xD800;
        assert (cp / 0x40) % 0x40 < 0x20;
      }
    } else {
      assert cp / 0x4_0000 <= 4;
      if cp < 0x4_0000 {
        assert 0x10 <= cp / 0x1000 < 0x40;
      }
      if 0x10_0000 <= cp {
        assert (cp / 0x1000) % 0x40 < 0x10;
      }
    }
  }

  /** The scalar value a one-to-four byte sequence carries, read back from
      the payload bits of its lead and continuation bytes. */
  function ScalarValue(bs: seq<byte>): int
    requires 1 <= |bs| <= 4
  {
    if |bs| == 1 then bs[0]
    else if |bs| == 2 then (bs[0] as int - 0xC0) * 0x40 + (bs[1] as int - 0x80)
    else if |bs| == 3 then (bs[0] as int - 0xE0) * 0x1000 + (bs[1] as int - 0x80) * 0x40 + (bs[2] as int - 0x80)
    else (bs[0] as int - 0xF0) * 0x4_0000 + (bs[1] as int - 0x80) * 0x1000 + (bs[2] as int - 0x80) * 0x40 + (bs[3] as int - 0x80)
  }

  /** Reading the payload bits back gives the character encoded. */
  lemma EncodeCharRoundTrip(c: char)
    ensures ScalarValue(EncodeChar(c)) == c as int
  {
    var cp := c as int;
    if cp < 0x80 {
    } else if cp < 0x800 {
      assert cp == 0x40 * (cp / 0x40) + cp % 0x40;
    } else if cp < 0x1_0000 {
      var q := cp / 0x40;
      assert cp == 0x40 * q + cp % 0x40;
      assert q == 0x40 * (q / 0x40) + q % 0x40;
      assert q / 0x40 == cp / 0x1000;
    } else {
      var q := cp / 0x40;
      var r := q / 0x40;
      assert cp == 0x40 * q + cp % 0x40;
      assert q == 0x40 * r + q % 0x40;
      assert r == 0x40 * (r / 0x40) + r % 0x40;
      assert r == cp / 0x1000;
      assert r / 0x40 == cp / 0x4_0000;
    }
  }

  /** Two characters with the same encoding are the same character. */
  lemma EncodeCharInjective(a: char, b: char)
    requires EncodeChar(a) == EncodeChar(b)
    ensures a == b
  {
    EncodeCharRoundTrip(a);
    EncodeCharRoundTrip(b);
  }

  lemma {:induction false} EncodeAppend(s: string, t: string)
    ensures Encode(s + t) == Encode(s) + Encode(t)
  {
    if s == [] {
      assert s + t == t;
    } else {
      assert (s + t)[0] == s[0];
      assert (s + t)[1..] == s[1..] + t;
      EncodeAppend(s[1..], t);
    }
  }

  /** Every encoding decodes. */
  lemma {:induction false} EncodeValid(s: string)
    ensures Valid(Encode(s))
  {
    if s != [] {
      var e := EncodeChar(s[0]);
      var bs := Encode(s);
      EncodeCharWellFormed(s[0]);
      EncodeValid(s[1..]);
      assert bs[..|e|] == e;
      assert bs[|e|..] == Encode(s[1..]);
    }
  }

  /** UTF-8 is uniquely decodable: distinct strings have distinct encodings. */
  lemma {:induction false} EncodeInjective(s: string, t: string)
    requires Encode(s) == Encode(t)
    ensures s == t
  {
    if s == [] || t == [] {
    } else {
      var a, b := EncodeChar(s[0]), EncodeChar(t[0]);
      var bs := Encode(s);
      EncodeCharWellFormed(s[0]);
      EncodeCharWellFormed(t[0]);
      assert a[0] == bs[0] == b[0];
      assert |a| == |b|;
      assert a == bs[..|a|] == b;
      EncodeCharInjective(s[0], t[0]);
      assert Encode(s[1..]) == bs[|a|..] == Encode(t[1..]);
      EncodeInjective(s[1..], t[1..]);
      assert s == [s[0]] + s[1..];
      assert t == [t[0]] + t[1..];
    }
  }

  /** The encoding of a prefix of characters is a prefix of the encoding. */
  lemma EncodePrefix(s: string, i: nat)
    requires i <= |s|
    ensures Encode(s[..i]) <= Encode(s)
  {
    assert s == s[..i] + s[i..];
    EncodeAppend(s[..i], s[i..]);
  }

  /** Taking one more character appends exactly that character's encoding. */
  lemma EncodePrefixStep(s: string, i: nat)
    requires i < |s|
    ensures Encode(s[..i + 1]) == Encode(s[..i]) + EncodeChar(s[i])
  {
    assert s[..i + 1] == s[..i] + [s[i]];
    EncodeAppend(s[..i], [s[i]]);
    assert Encode([s[i]]) == EncodeChar(s[i]) + Encode([]);
  }

  lemma EncodePrefixMonotone(s: string, i: nat, j: nat)
    requires i <= j <= |s|
    ensures |Encode(s[..i])| <= |Encode(s[..j])|
  {
    assert s[..j][..i] == s[..i];
    EncodePrefix(s[..j], i);
  }

  /** Decoding a prefix of `e + rest`, where `e` is one encoded character,
      consumes all of `e` first and then decodes a prefix of `rest`. */
  lemma ValidPrefixAfterChar(c: char, rest: seq<byte>, n: nat)
    requires 1 <= n <= |EncodeChar(c)| + |rest|
    requires Valid((EncodeChar(c) + rest)[..n])
    ensures |EncodeChar(c)| <= n
    ensures Valid(rest[..n - |EncodeChar(c)|])
  {
    var e := EncodeChar(c);
    var p := (e + rest)[..n];
    EncodeCharWellFormed(c);
    assert p[0] == e[0];
    assert LeadLength(p[0]) == |e|;
    assert p[|e|..] == rest[..n - |e|];
  }

  /** A byte prefix of an encoding that decodes ends on a character
      boundary: it is the encoding of a prefix of the characters. */
  lemma {:induction false} ValidPrefixIsBoundary(s: string, n: nat)
    requires n <= |Encode(s)|
    requires Valid(Encode(s)[..n])
    ensures exists i :: 0 <= i <= |s| && Encode(s[..i]) == Encode(s)[..n]
  {
    if n == 0 {
      assert Encode(s[..0]) == [] == Encode(s)[..0];
    } else {
      assert s != [];
      var e := EncodeChar(s[0]);
      var tail := Encode(s[1..]);
      ValidPrefixAfterChar(s[0], tail, n);
      var m := |e|;
      ValidPrefixIsBoundary(s[1..], n - m);
      var j :| 0 <= j <= |s[1..]| && Encode(s[1..][..j]) == tail[..n - m];
      var i := j + 1;
      assert s[..i][0] == s[0];
      assert s[..i][1..] == s[1..][..j];
      assert Encode(s[..i]) == e + tail[..n - m];
      assert Encode(s)[..n] == e + tail[..n - m];
    }
  }
}

=== FILE: wrappers.dfy ===
/** Values shared by every module of the model: `Option` stands for Python's
    `None`-or-value returns, `Result` for an operation that either returns
    or raises an `HTTPException`. */
module Wrappers {

  datatype Option<+T> = None | Some(value: T)

  datatype Result<+T, +E> = Ok(value: T) | Err(error: E)

  /** The value a partial update writes: the supplied one if any, the
      current one otherwise. */
  function Or<T>(supplied: Option<T>, current: T): (v: T)
    ensures supplied.Some? ==> v == supplied.value
    ensures supplied.None? ==> v == current
  {
    if supplied.Some? then supplied.value else current
  }
}
